=== FILE: README.md ===
# Matching core of TradingClientExchange, in Dafny

This project models the in-memory matching stack of TradingClientExchange. The stack has three layers:

- **Order value** (`Orders`). Construction validates the symbol, quantity and price and draws the id from one shared counter. The mutators are `modify`, `reduceQuantity` and `cancel`. An order is active until its quantity reaches zero.
- **Order book** (`Ladders`, `Books`, `Matching`). There is one book per symbol, with two price ladders of FIFO queues:
  - bids, best (highest) key first;
  - asks, best (lowest) key first.
  A market order is keyed ahead of every priced level on its side. `addOrder` appends at the tail of a level. `removeOrder` and `modifyOrder` erase the order, and `modifyOrder` re-appends it. `match` repeatedly crosses the two front orders, filling the smaller quantity, popping filled orders and dropping empty levels.
- **Execution engine** (`Engines`, `Venues`). Books are created per symbol on first use. The engine keeps an id→book map and a maximum order quantity (1,000,000 by default). Each fill of a matching run is reported as a `Trade`, in order, when a handler is installed. `Venues` threads the order-id counter through construct-then-submit. Ids then come out fresh, which the engine relies on.

Prices are integer ticks, because the core only compares them. The ±`DBL_MAX` market sentinels become the key tag `Key = AtMarket | Px(ticks)`. C++ exceptions become `Result` failures that name the error.

The book invariant is `Books.Valid`:
- every registered order is active with positive quantity;
- both ladders are strictly sorted and have no empty level;
- every queued id sits on its own side at its own key;
- the multiset of queued ids equals the set of registered ids (each order is queued exactly once).

`Engines.EngineValid` adds:
- every book is valid and carries its symbol;
- every id mapping names an existing book;
- every resting order is mapped to the book that holds it.

`match` terminates on the number of registered orders: each crossing step removes at least one of them.

Where the code departs from the intended design, the model follows the code, with one exception. `Engines.Modify` calls the corrected `Books.ModifyOrder`, which validates the new price before erasing the order. The code erases first and so can orphan the order (see "Findings"); that ordering is modelled only at the book level, by `Books.ModifyOrderAsWritten`. Elsewhere the model follows the code:
- a market order with no opposite liquidity rests on its side;
- `modifyOrder` always re-queues at the tail, even when only the quantity decreases;
- two crossing limit orders always trade at the buy price (the `sell` branch of src/OrderBook.cpp:136-138 is unreachable once the fronts cross);
- STOP orders are priced like LIMIT orders;
- ids of filled or modified-to-zero orders stay in the engine's id map, because the source never erases them there.

## Model

| member | source | states |
|---|---|---|
| Orders.NewOrder | src/Order.cpp:5-19 | Construction fails exactly for an empty symbol, a quantity ≤ 0, or a price ≤ 0 on a non-market order. The error is the first failing check in source order. On success the order is active and carries exactly the given fields. Its id is the counter's value, and the counter advances by one only then. |
| Orders.SuccessiveIdsIncrease | src/Order.cpp:3-18 | Two orders built one after another from the same counter get strictly increasing ids. The first order built from the initial counter gets id 0. |
| Orders.Modify | src/Order.cpp:30-42 | Fails on an inactive order (logic error), then on a negative quantity, then on a price ≤ 0 for a priced order. Otherwise it sets price and quantity, keeps id, symbol, side and type, and leaves the order active exactly when the quantity is non-zero. |
| Orders.ReduceQuantity | src/Order.cpp:44-48 | On a consistent order it succeeds exactly for 0 < traded ≤ quantity. It rejects a non-positive fill and a fill above the resting quantity. It leaves quantity − traded at the same price. |
| Orders.Cancel | src/Order.cpp:50-53 | The order becomes inactive with quantity 0. Identity and price are kept. |
| Orders.CancelIdempotent | tests/OrderTests.cpp:26-31 | Cancelling an already cancelled order changes nothing. |
| Orders.InactiveIffEmpty | src/Order.cpp:41 | After any successful `modify`, `reduceQuantity` or `cancel` of a consistent order, the order is inactive exactly when its quantity is 0. |
| Ladders.KeyFor | src/OrderBook.cpp:8-13 | A market order gets the market key. Every other order (LIMIT or STOP) is keyed by its price. |
| Ladders.MarketKeyFirst | include/OrderBook.hpp:39-40 | The market key is ahead of every priced level on either side. Among prices, bids rank higher-first and asks lower-first. |
| Ladders.AheadStrictTotal | include/OrderBook.hpp:47-48 | The ladder order on keys is a strict total order for each side, as a `std::map` comparator must be. |
| Ladders.Insert | src/OrderBook.cpp:164-171 | Keeps the ladder sorted with no empty level. Appends the id at the tail of the queue at its key, creating the level if needed. Leaves every other level unchanged. |
| Ladders.InsertFlatten | src/OrderBook.cpp:168 | Inserting adds exactly one occurrence of the id to the side's queued ids. |
| Ladders.Erase | src/OrderBook.cpp:173-191 | Keeps the ladder sorted with no empty level, dropping a level that empties. A missing level leaves the side unchanged. |
| Ladders.EraseLevels | src/OrderBook.cpp:180-182 | Only the level at the order's key changes, and it loses exactly the occurrences of the id. |
| Ladders.EraseFlatten | src/OrderBook.cpp:181-182 | The side's queued ids lose exactly what the erased level loses. |
| Ladders.RemoveAllCount | src/OrderBook.cpp:181 | `std::remove` drops every copy of the id, keeps every other id as often as it occurred, and leaves a queue without the id unchanged. |
| Ladders.RemoveAllOnce | src/OrderBook.cpp:181 | Removing an id that occurs once keeps the ids before and after it in their order. |
| Ladders.PopFront | src/OrderBook.cpp:147-149 | Popping the front drops the first queued id of the side and removes its level if that empties. Every other level is unchanged. |
| Books.NewBook | src/OrderBook.cpp:16 | A new book holds no order, has empty ladders and satisfies the invariant. |
| Books.InsertOrder | src/OrderBook.cpp:164-171 | The id joins the tail of its key's level on its own side. The opposite ladder and the id map are untouched. |
| Books.EraseOrder | src/OrderBook.cpp:173-191 | The id leaves the level at its key on its own side. Every other level, the opposite ladder and the id map are untouched. |
| Books.AddOrder | src/OrderBook.cpp:18-28 | Rejects an order of another symbol. Otherwise the order is registered by id and appended at the tail of its key's level, and its own id is returned. The rest of the book is unchanged and the invariant is kept. |
| Books.RemoveOrder | src/OrderBook.cpp:30-39 | Returns false and changes nothing exactly when the id is unknown. Otherwise the order leaves the id map, its queue and its level if that empties. The invariant is kept. |
| Books.ModifyOrder | src/OrderBook.cpp:41-62 | Refuses an unknown id. An absent price or quantity keeps the current one. A resulting quantity ≤ 0 removes the order. A bad price for a priced order fails and leaves the book unchanged. Otherwise the order is updated and re-queued at the tail of the level for its (possibly new) key. Every other level of its side loses only that id, and the opposite ladder is unchanged. The invariant is kept. |
| Books.ModifyToZeroIsRemove | src/OrderBook.cpp:53-57 | Modifying an order's quantity to 0 yields the same book as removing it. |
| Books.ModifyOrderAsWritten | src/OrderBook.cpp:41-62 | The source's ordering agrees with `ModifyOrder` everywhere except the bad-price failure, which both report. |
| Books.ModifyOrderAsWrittenOrphans | src/OrderBook.cpp:49-59 | In the source's ordering, a bad price leaves the order registered but queued nowhere, which breaks the book invariant. |
| Books.GetOrder | src/OrderBook.cpp:194-199 | Finds an order exactly when its id is queued in the book. The order found is the one registered under that id: it carries the id and the book's symbol and is active. |
| Books.FirstPriced | src/OrderBook.cpp:67-71 | The scan returns the first active priced order in queue order, or nothing when there is none. |
| Books.FirstPricedIsHead | src/OrderBook.cpp:67-70 | The first active priced id in queue order is the head of the queue at its own key. |
| Books.BestIsTopOfBook | src/OrderBook.cpp:64-82 | The best order of a side is a registered priced order of that side whose price is at least as good as every other priced order there. It is the oldest order at that price: the head of that price's level. There is none exactly when the side holds no priced order. |
| Books.BestBid | src/OrderBook.cpp:64-72 | `getBestBid` returns the priced buy order with the highest bid price that is first in time at that price (the head of its level). It returns nothing exactly when no priced buy order rests. |
| Books.BestAsk | src/OrderBook.cpp:74-82 | `getBestAsk` returns the priced sell order with the lowest ask price that is first in time at that price (the head of its level). It returns nothing exactly when no priced sell order rests. |
| Books.ActiveOrders | src/OrderBook.cpp:87-90 | Collects only active orders named by the ids. When every id names an active order, the result has exactly one entry per id, in queue order. |
| Books.BuyOrders | src/OrderBook.cpp:84-92 | `getBuyOrders` lists every resting buy order exactly once and nothing else, in ladder order: best key first, FIFO within a level. |
| Books.SellOrders | src/OrderBook.cpp:94-102 | `getSellOrders` lists every resting sell order exactly once and nothing else, in ladder order: best key first, FIFO within a level. |
| Books.SideMembers | src/OrderBook.cpp:84-102 | The ids queued on a side are exactly the registered orders of that side, each queued once. |
| Books.SideOrdersListing | src/OrderBook.cpp:84-102 | A side's listing has one entry per queued id, and keys never get better further down the list. |
| Matching.Front | src/OrderBook.cpp:109-126 | The front of a side is the head of its best level. It is a resting order of that side keyed at the best level. |
| Matching.Filled | src/OrderBook.cpp:141-142 | A fill of qty leaves the front order with quantity − qty at the same price and identity. It stays active exactly when something is left. |
| Matching.FillFront | src/OrderBook.cpp:141-156 | A partial fill keeps the front in place. A full fill pops it from its queue (and level) and from the id map. The opposite side is untouched and the invariant is kept. |
| Matching.FillFrontQty | src/OrderBook.cpp:141-142 | A fill takes exactly qty off its side's total resting quantity and leaves the other side's total alone. |
| Matching.TradePrice | src/OrderBook.cpp:132-138 | The price is one of the two orders' prices. It is the sell's price against a market buy, the buy's price against a market sell, and the buy's price when two priced orders cross. |
| Matching.CrossedTradesAtBid | src/OrderBook.cpp:136-137 | Two crossing priced orders trade at the bid, a price both limits accept. |
| Matching.Cross | src/OrderBook.cpp:125-156 | One step fills qty = min of the two front quantities, with qty > 0, on both fronts. It records that execution with the front ids and trade price and lowers each side's total by qty. It removes exactly the fronts that were filled completely, so the book shrinks. |
| Matching.CrossPriority | src/OrderBook.cpp:131-144 | One step trades min of the two front quantities. A front that survives keeps its identity and price with exactly qty less. |
| Matching.CrossFrame | src/OrderBook.cpp:141-156 | One step changes no order except the two fronts. Each ladder's queue order is kept, or loses exactly its head when that front is used up. |
| Matching.MatchBook | src/OrderBook.cpp:104-160 | Matching ends uncrossed with the invariant kept. Each side loses exactly the total traded quantity. Every execution has positive quantity between a buy and a sell order of the book, at the trade price those two orders set. Survivors keep identity and price and never gain quantity. An uncrossed book is left as it is. A crossed one yields at least one execution, and the first is between the two fronts at the trade price. |
| Matching.MatchBookPriority | src/OrderBook.cpp:108-156 | Over the whole run, matching takes each side in its queue order (best key first, FIFO within a level) and never passes over an order it has not used up. Every execution's buy order is queued on the bid side. No later execution takes a buy order queued ahead of an earlier execution's one. Every bid queued ahead of an executed buy order is gone when matching ends. The same holds for sell orders on the ask side. |
| Matching.SettledBook | src/OrderBook.cpp:108-129 | When matching stops, a side is empty or both fronts are priced with the bid strictly below the ask. |
| Matching.SettledSpread | src/OrderBook.cpp:128-129 | After matching, if both sides rest, the best bid and best ask are the two fronts and the bid is strictly below the ask. |
| Engines.NewEngine | src/ExecutionEngine.hpp:40-44 | A new engine has no books and no id mappings, a limit of 1,000,000 and no handler, and it is consistent. |
| Engines.IdsUniqueAcrossBooks | src/ExecutionEngine.hpp:40-41 | No id rests in two books. |
| Engines.LiveRouted | src/ExecutionEngine.cpp:33 | An id rests somewhere exactly when it rests in the book it is mapped to. |
| Engines.EnsureBook | src/ExecutionEngine.cpp:6-10 | Creates an empty book only when the symbol has none. Every existing book, the id map, the limit and the handler are untouched, and consistency is kept. |
| Engines.EnsureBookIdempotent | src/ExecutionEngine.cpp:8-9 | Ensuring a book twice is the same as ensuring it once. |
| Engines.GetBook | src/ExecutionEngine.cpp:12-16 | Finds a book exactly when the symbol has one, and it is that symbol's book. |
| Engines.GetBookAfterEnsure | src/ExecutionEngine.cpp:12-16 | After `ensureBook`, `getBook` finds a book carrying the symbol. A book created just now is empty. |
| Engines.BookForOrder | src/ExecutionEngine.cpp:73-77 | Finds a book exactly for a mapped id. For a resting order it is the book that holds it. |
| Engines.Report | src/ExecutionEngine.cpp:37-38 | One trade per fill, in fill order, each carrying the symbol and the fill's ids, price and quantity. |
| Engines.Reported | src/ExecutionEngine.cpp:36-39 | With a handler installed, every fill is reported once, in order, tagged with the book's symbol. Without one, nothing is reported. |
| Engines.ReportedFills | src/ExecutionEngine.cpp:36-39 | Every reported trade carries the book's symbol and a positive quantity. |
| Engines.Admitted | src/ExecutionEngine.cpp:29-31 | Before matching, the symbol's book (created if missing) holds exactly its previous orders plus the new one and stays valid. |
| Engines.AdmittedLadders | src/ExecutionEngine.cpp:31 | Admission appends the order last at its own key and leaves the opposite ladder unchanged. |
| Engines.Submit | src/ExecutionEngine.cpp:24-41 | Fails exactly for a null order (null-order error) or a quantity above the limit (limit error). Otherwise it returns the order's own id and takes the accepted path. |
| Engines.Accept | src/ExecutionEngine.cpp:29-40 | The id is mapped to the symbol's book, which exists afterwards, is valid and is uncrossed. Every other book, the limit and the handler are unchanged, and the engine stays consistent. The trades carry the symbol and positive quantities, and there are none without a handler. |
| Engines.SubmitReportsFills | src/ExecutionEngine.cpp:29-39 | An accepted submission replaces its symbol's book by the admitted book matched until uncrossed and maps the id there. With a handler installed, it reports exactly that matching's executions in order; without one, it reports nothing. An order that does not cross rests: the book keeps every order it held, with unchanged quantities, plus the new one, and nothing trades. |
| Engines.AcceptTradesInBook | src/ExecutionEngine.cpp:29-35 | Orders of different symbols never trade. Each reported trade pairs a buy order and a sell order that are the new order or orders already resting in its symbol's book. |
| Engines.SubmitAtLimit | src/ExecutionEngine.cpp:27 | A quantity equal to the limit is accepted, and one above it is rejected. |
| Engines.MarketOrderNoLiquidity | tests/ExecutionEngineTests.cpp:176-185 | A market order meeting an empty opposite side produces no trade and rests on its side at the market key. |
| Engines.Cancel | src/ExecutionEngine.cpp:43-53 | Returns true exactly when the id rests somewhere. A false return changes nothing. A true return removes the order from its book and drops its mapping, and nothing else changes. Afterwards the id rests nowhere and the engine stays consistent. |
| Engines.CancelTwice | tests/ExecutionEngineTests.cpp:156-158 | Cancelling the same id again returns false and changes nothing. |
| Engines.Modify | src/ExecutionEngine.cpp:55-71 | Returns false, changing nothing, for an unmapped id or one its book refuses. A bad price for a priced resting order is the only failure. Otherwise only that order's book changes: it is re-matched, stays valid and ends uncrossed. It holds no new order, and a quantity ≤ 0 removes the modified order. The id map is unchanged. |
| Engines.ModifyReportsFills | src/ExecutionEngine.cpp:62-69 | When the book modifies the order, the engine's book for it becomes the modified book matched until uncrossed. With a handler installed, exactly that matching's executions are reported, in order, tagged with the symbol; without one, nothing is. |
| Engines.ModifyTriggersRematch | tests/ExecutionEngineTests.cpp:108-121 | A modification that leaves its book crossed triggers matching, and with a handler at least one trade is reported. |
| Engines.Rematch | src/ExecutionEngine.cpp:62-69 | The modified book is matched and put back. Only that book changes, it ends valid and uncrossed with only orders it had, and the engine stays consistent. |
| Engines.RematchNoNew | src/ExecutionEngine.cpp:62-64 | Re-matching never adds an order to any book. |
| Engines.RematchReports | src/ExecutionEngine.cpp:64-69 | Re-matching a crossed book with a handler installed reports at least one trade. |
| Engines.Install | src/ExecutionEngine.cpp:64-69 | A matched book replaces the symbol's book and its fills are reported. Everything else is unchanged and consistency is kept. |
| Engines.SetMaxOrderQty | src/ExecutionEngine.hpp:35 | Sets the limit, changes nothing else and keeps consistency. |
| Engines.MaxOrderQtyGovernsSubmit | tests/ExecutionEngineTests.cpp:126-141 | After `setMaxOrderQty(q)`, a submission is rejected exactly when its quantity exceeds q. |
| Engines.SetTradeHandler | src/ExecutionEngine.hpp:36 | Installs or clears the handler, changes nothing else and keeps consistency. |
| Engines.HandlerGovernsReports | src/ExecutionEngine.cpp:36-39 | With a handler installed, a submission reports every fill of its matching run. Without one it reports nothing. |
| Venues.NewVenue | src/Order.cpp:3 | The counter starts at 0 with an empty, consistent engine. |
| Venues.CounterFresh | src/Order.hpp:34 | The counter's next value names no resting order in any book. |
| Venues.SubmitNew | tests/ExecutionEngineTests.cpp:28-31 | A construction error leaves everything unchanged. Once construction succeeds, the id is spent. A quantity above the limit is then rejected with the engine unchanged, and any other order is accepted under the counter's id, which was unmapped and is now mapped to the symbol. The resulting engine and trades are exactly those of the engine's accepted path for the built order. |
| Venues.SubmitKeepsVenue | src/Order.cpp:18 | Accepting the counter's id keeps every mapped id below the advanced counter. |
| Venues.CancelById | src/ExecutionEngine.cpp:43-53 | Cancelling keeps the venue consistent, reports whether the id rested, and leaves it resting nowhere. |
| Venues.ModifyById | src/ExecutionEngine.cpp:55-71 | Modifying keeps the venue consistent. A failure or a false return leaves it unchanged, and false means the id rested nowhere. |
| Venues.SuccessiveSubmitsIncrease | src/Order.cpp:18 | Two valid orders within the limit, submitted one after the other, are both accepted with consecutive ids. The first id is still mapped when the second arrives. |
| Venues.IdsNeverReused | src/Order.hpp:34 | A valid order within the limit is accepted under an id above every id the engine already maps, so no id is ever reused across books. |

## Left out

- Mutexes and `lock_guard` in `OrderBook` and `ExecutionEngine`: the model is sequential.
- `EngineRunner` (worker thread and queues, TopOfBook events), the C API in `api_c`, `main.cpp` and the Python bindings: these are concurrency and boundary plumbing outside the matching core.
- Floating-point prices and the ±`DBL_MAX` sentinels: these are replaced by integer ticks and the `AtMarket` key. The core only compares prices.
- Stop-trigger behaviour: the code has none, so a STOP order is simply a priced order.
- `shared_ptr` aliasing: a caller mutating or cancelling an `Order` the book also holds is not modelled. Orders are values owned by their book. The "skip inactive front" loops at src/OrderBook.cpp:112-113 and the empty-level branches at src/OrderBook.cpp:115-123 are unreachable under the book invariant and are not modelled.
- Re-submitting an order object that is already in a book, or submitting a cancelled one: `Books.AddOrder` and `Engines.Submit` require a fresh, active order. `Venues.SubmitNew` discharges this by construction, because every submitted order is freshly built from the counter.
- The cancelled state of an order that `removeOrder`, `modifyOrder` or `match` drops from the book is not represented. Once it is out of the id map it is unreachable from the book.
- The 32-bit width of the id counter (`std::atomic<int>`) and of quantities: both are unbounded integers. Wrap-around after 2^31 orders is not modelled.
- The trade handler callback: it is modelled as a flag saying whether one is installed, and the reported trades are returned instead of being passed to it.
- Engines.Modify: does not state that the trades are empty when the quantity goes to zero. Removing an order cannot cross an uncrossed book, but the engine invariant does not record that books are uncrossed between operations, so the claim is not proved.
- Books.AddOrder: a null order is not represented, because orders are values. Its only caller in the core, `ExecutionEngine::submit`, rejects null before calling it (src/ExecutionEngine.cpp:26), and `Engines.Submit` models that check.
- Engines.Modify: does not leave a rejected order orphaned as src/ExecutionEngine.cpp:62 does through src/OrderBook.cpp:49,59. It uses the corrected `Books.ModifyOrder`, so a bad price fails with the engine unchanged. The orphaning is modelled only at the book level, by `Books.ModifyOrderAsWritten` and `Books.ModifyOrderAsWrittenOrphans`.
- Venues.ModifyById: its promise that a failure leaves the venue unchanged holds for the corrected ordering only. In the code, the failed order stays in the id map but is queued nowhere.
- Engines.GetBook: states only the lookup. Validity of the returned book follows from the engine invariant through `Engines.BookAt`.

## Findings

| source | as written | input that shows it | evidently intended | confidence | as-written member | corrected member |
|---|---|---|---|---|---|---|
| src/OrderBook.cpp:49,59 | `modifyOrder` erases the order from its level before `Order::modify` validates the new price, so a rejected price throws with the order still in `ordersById` but queued nowhere | a book holding one resting LIMIT order; `modifyOrder(id, 0.0, nullopt)` throws, after which `getOrder(id)` still finds the order but `match`, `getBuyOrders` and `getBestBid` never see it | validate before erasing, so a rejected modification leaves the book as it was | medium, not executed | Books.ModifyOrderAsWritten, Books.ModifyOrderAsWrittenOrphans | Books.ModifyOrder, Venues.ModifyById |

=== FILE: books.dfy ===
/** The order book of one symbol: the orders it holds, by id, and the two
    ladders that queue those ids (bids best-first by descending key, asks
    best-first by ascending key). */
module Books {
  import opened Wrappers
  import opened Orders
  import opened Ladders

  /** One execution reported by matching. */
  datatype Match = Match(buyId: OrderId, sellId: OrderId, price: Price, qty: int)

  datatype Book = Book(symbol: string, orders: map<OrderId, Order>, bids: seq<Level>, asks: seq<Level>)

  /** What `modifyOrder` does: returns false, returns true with a new book,
      or throws, leaving some book state behind. */
  datatype ModifyOutcome = Refused | Modified(book: Book) | Threw(error: Error, book: Book)

  function Ladder(b: Book, side: Side): seq<Level> {
    if side == Buy then b.bids else b.asks
  }

  function Opposite(side: Side): Side {
    if side == Buy then Sell else Buy
  }

  /** Every queued id of the book, bids then asks, each side best-first. */
  function Queued(b: Book): seq<OrderId> {
    Flatten(b.bids) + Flatten(b.asks)
  }

  /** An order that may rest in a book: active (hence positive quantity). */
  predicate Resting(o: Order) {
    o.active && Consistent(o)
  }

  /** Every id queued at key `k` of a side is an order of that side whose
      own key is `k`. */
  ghost predicate Keyed(ls: seq<Level>, side: Side, orders: map<OrderId, Order>) {
    forall k, x :: x in LevelQueue(ls, k) ==>
      x in orders && orders[x].side == side && KeyFor(orders[x]) == k
  }

  ghost predicate Registered(b: Book) {
    forall id :: id in b.orders ==>
      b.orders[id].id == id && b.orders[id].symbol == b.symbol && Resting(b.orders[id])
  }

  /** The book invariant: every registered order is active with positive
      quantity; both ladders are sorted with no empty level; every queued
      id sits at its own side and key; and the ids queued across both
      ladders are exactly the registered ids, each queued once. */
  ghost predicate Valid(b: Book) {
    && Registered(b)
    && SideValid(b, Buy) && SideValid(b, Sell)
    && multiset(Queued(b)) == multiset(b.orders.Keys)
  }

  ghost predicate SideValid(b: Book, side: Side) {
    WellFormed(side, Ladder(b, side)) && Keyed(Ladder(b, side), side, b.orders)
  }

  lemma BothSides(b: Book, side: Side)
    requires SideValid(b, side) && SideValid(b, Opposite(side))
    ensures SideValid(b, Buy) && SideValid(b, Sell)
  {
  }

  function NewBook(symbol: string): (b: Book)
    ensures Valid(b) && b.symbol == symbol && b.orders == map[]
    ensures b.bids == [] && b.asks == []
  {
    Book(symbol, map[], [], [])
  }

  // ---------------------------------------------------------------------
  // Facts about the invariant

  /** Registering a fresh id adds exactly that id to the registered ids. */
  lemma KeysAdd(m: map<OrderId, Order>, x: OrderId, v: Order)
    requires x !in m
    ensures multiset(m[x := v].Keys) == multiset(m.Keys) + multiset{x}
  {
    assert m[x := v].Keys == m.Keys + {x};
    assert forall y :: multiset(m.Keys + {x})[y] == (multiset(m.Keys) + multiset{x})[y];
  }

  /** Unregistering an id removes exactly that id from the registered ids. */
  lemma KeysRemove(m: map<OrderId, Order>, x: OrderId)
    requires x in m
    ensures multiset((m - {x}).Keys) == multiset(m.Keys) - multiset{x}
  {
    assert (m - {x}).Keys == m.Keys - {x};
    assert forall y :: multiset(m.Keys - {x})[y] == (multiset(m.Keys) - multiset{x})[y];
  }

  /** Multiset bookkeeping for erasing one copy of `id` through its level. */
  lemma DropOne(f: multiset<OrderId>, f': multiset<OrderId>, lq: multiset<OrderId>, rm: multiset<OrderId>, id: OrderId)
    requires f' + lq == f + rm && rm == lq[id := 0] && lq[id] == 1
    ensures f' == f - multiset{id}
  {
    forall y
      ensures f'[y] == (f - multiset{id})[y]
    {
      assert (f' + lq)[y] == (f + rm)[y];
    }
  }

  lemma KeyedAt(side: Side, ls: seq<Level>, orders: map<OrderId, Order>, i: nat, x: OrderId)
    requires Sorted(side, ls) && Keyed(ls, side, orders)
    requires i < |ls| && x in ls[i].queue
    ensures x in orders && orders[x].side == side && KeyFor(orders[x]) == ls[i].key
  {
    LevelQueueAt(side, ls, i);
  }

  lemma KeyedFlatten(side: Side, ls: seq<Level>, orders: map<OrderId, Order>, x: OrderId)
    requires Sorted(side, ls) && Keyed(ls, side, orders) && x in Flatten(ls)
    ensures x in orders && orders[x].side == side
  {
    var i := FlattenMember(ls, x);
    KeyedAt(side, ls, orders, i, x);
  }

  lemma InLevelQueueInFlatten(ls: seq<Level>, k: Key, x: OrderId)
    requires x in LevelQueue(ls, k)
    ensures x in Flatten(ls)
  {
    LevelQueueInFlatten(ls, k);
    assert multiset(LevelQueue(ls, k))[x] > 0;
  }

  /** Keyed survives any change to the orders that keeps, for every queued
      id, its side and key. */
  lemma KeyedFrame(side: Side, ls: seq<Level>, o1: map<OrderId, Order>, o2: map<OrderId, Order>)
    requires Keyed(ls, side, o1)
    requires forall x :: x in Flatten(ls) && x in o1 ==>
      x in o2 && o2[x].side == o1[x].side && KeyFor(o2[x]) == KeyFor(o1[x])
    ensures Keyed(ls, side, o2)
  {
    forall k, x | x in LevelQueue(ls, k)
      ensures x in o2 && o2[x].side == side && KeyFor(o2[x]) == k
    {
      InLevelQueueInFlatten(ls, k, x);
    }
  }

  /** A registered order is queued exactly once, at its own side and key,
      and never on the opposite side. */
  lemma Located(b: Book, id: OrderId)
    requires Valid(b) && id in b.orders
    ensures var o := b.orders[id];
      && id in LevelQueue(Ladder(b, o.side), KeyFor(o))
      && multiset(Flatten(Ladder(b, o.side)))[id] == 1
      && id !in Flatten(Ladder(b, Opposite(o.side)))
  {
    var o := b.orders[id];
    assert multiset(Queued(b))[id] == 1;
    if id in Flatten(b.bids) {
      KeyedFlatten(Buy, b.bids, b.orders, id);
    }
    if id in Flatten(b.asks) {
      KeyedFlatten(Sell, b.asks, b.orders, id);
    }
    var ls := Ladder(b, o.side);
    assert id in Flatten(ls);
    var i := FlattenMember(ls, id);
    KeyedAt(o.side, ls, b.orders, i, id);
    LevelQueueAt(o.side, ls, i);
  }

  // ---------------------------------------------------------------------
  // Ladder maintenance: insertOrder / eraseOrder

  /** Appends the order's id at the tail of its key's level on its side. */
  function InsertOrder(b: Book, o: Order): (r: Book)
    requires WellFormed(Buy, b.bids) && WellFormed(Sell, b.asks)
    ensures r.symbol == b.symbol && r.orders == b.orders
    ensures WellFormed(Buy, r.bids) && WellFormed(Sell, r.asks)
    ensures Ladder(r, Opposite(o.side)) == Ladder(b, Opposite(o.side))
    ensures LevelQueue(Ladder(r, o.side), KeyFor(o)) == LevelQueue(Ladder(b, o.side), KeyFor(o)) + [o.id]
    ensures forall k :: k != KeyFor(o) ==> LevelQueue(Ladder(r, o.side), k) == LevelQueue(Ladder(b, o.side), k)
    ensures multiset(Flatten(Ladder(r, o.side))) == multiset(Flatten(Ladder(b, o.side))) + multiset{o.id}
  {
    InsertFlatten(o.side, Ladder(b, o.side), KeyFor(o), o.id);
    if o.side == Buy then b.(bids := Insert(Buy, b.bids, KeyFor(o), o.id))
    else b.(asks := Insert(Sell, b.asks, KeyFor(o), o.id))
  }

  /** Removes the order's id from the level at its key on its side (all
      copies, as `std::remove` does), dropping the level if it empties. */
  function EraseOrder(b: Book, o: Order): (r: Book)
    requires WellFormed(Buy, b.bids) && WellFormed(Sell, b.asks)
    ensures r.symbol == b.symbol && r.orders == b.orders
    ensures WellFormed(Buy, r.bids) && WellFormed(Sell, r.asks)
    ensures Ladder(r, Opposite(o.side)) == Ladder(b, Opposite(o.side))
    ensures LevelQueue(Ladder(r, o.side), KeyFor(o)) == RemoveAll(LevelQueue(Ladder(b, o.side), KeyFor(o)), o.id)
    ensures forall k :: k != KeyFor(o) ==> LevelQueue(Ladder(r, o.side), k) == LevelQueue(Ladder(b, o.side), k)
    ensures multiset(Flatten(Ladder(r, o.side))) + multiset(LevelQueue(Ladder(b, o.side), KeyFor(o)))
         == multiset(Flatten(Ladder(b, o.side))) + multiset(RemoveAll(LevelQueue(Ladder(b, o.side), KeyFor(o)), o.id))
  {
    EraseLevels(o.side, Ladder(b, o.side), KeyFor(o), o.id);
    EraseFlatten(o.side, Ladder(b, o.side), KeyFor(o), o.id);
    if o.side == Buy then b.(bids := Erase(Buy, b.bids, KeyFor(o), o.id))
    else b.(asks := Erase(Sell, b.asks, KeyFor(o), o.id))
  }

  // ---------------------------------------------------------------------
  // Registering and unregistering an order

  /** Keyed survives registering a new order and appending it at its key. */
  lemma KeyedAppend(side: Side, ls: seq<Level>, ls': seq<Level>, orders: map<OrderId, Order>, o: Order)
    requires Keyed(ls, side, orders) && o.id !in orders && o.side == side
    requires LevelQueue(ls', KeyFor(o)) == LevelQueue(ls, KeyFor(o)) + [o.id]
    requires forall k :: k != KeyFor(o) ==> LevelQueue(ls', k) == LevelQueue(ls, k)
    ensures Keyed(ls', side, orders[o.id := o])
  {
    var orders' := orders[o.id := o];
    forall k, x | x in LevelQueue(ls', k)
      ensures x in orders' && orders'[x].side == side && KeyFor(orders'[x]) == k
    {
      if k == KeyFor(o) {
        if x != o.id {
          assert x in LevelQueue(ls, k);
        }
      } else {
        assert x in LevelQueue(ls, k);
      }
    }
  }

  /** Keyed survives unregistering `id` from the orders when no level
      gains an id and `id` is queued nowhere. */
  lemma KeyedShrink(side: Side, ls: seq<Level>, ls': seq<Level>, orders: map<OrderId, Order>, id: OrderId)
    requires Keyed(ls, side, orders)
    requires forall k, x :: x in LevelQueue(ls', k) ==> x in LevelQueue(ls, k) && x != id
    ensures Keyed(ls', side, orders - {id})
  {
  }

  /** Keyed survives unregistering an order and removing it from its key. */
  lemma KeyedRemove(side: Side, ls: seq<Level>, ls': seq<Level>, orders: map<OrderId, Order>, id: OrderId)
    requires Keyed(ls, side, orders) && id in orders
    requires LevelQueue(ls', KeyFor(orders[id])) == RemoveAll(LevelQueue(ls, KeyFor(orders[id])), id)
    requires forall k :: k != KeyFor(orders[id]) ==> LevelQueue(ls', k) == LevelQueue(ls, k)
    ensures Keyed(ls', side, orders - {id})
  {
    var k0 := KeyFor(orders[id]);
    forall k, x | x in LevelQueue(ls', k)
      ensures x in LevelQueue(ls, k) && x != id
    {
      if k == k0 {
        RemoveAllMember(LevelQueue(ls, k0), id, x);
      }
    }
    KeyedShrink(side, ls, ls', orders, id);
  }

  /** Both ladders' ids, counted side by side. */
  lemma QueuedSplit(b: Book, side: Side)
    ensures multiset(Queued(b))
         == multiset(Flatten(Ladder(b, side))) + multiset(Flatten(Ladder(b, Opposite(side))))
  {
  }

  lemma PlaceSides(b: Book, o: Order)
    requires SideValid(b, Buy) && SideValid(b, Sell) && o.id !in b.orders
    ensures var r := InsertOrder(b.(orders := b.orders[o.id := o]), o);
      SideValid(r, Buy) && SideValid(r, Sell)
  {
    var orders := b.orders[o.id := o];
    var r := InsertOrder(b.(orders := orders), o);
    var own, other := o.side, Opposite(o.side);
    BothSides(b, own);
    KeyedAppend(own, Ladder(b, own), Ladder(r, own), b.orders, o);
    KeyedFrame(other, Ladder(b, other), b.orders, orders);
    assert SideValid(r, own) && SideValid(r, other);
    BothSides(r, own);
  }

  /** Adding one id to one side's ids adds it to the book's ids. */
  lemma QueuedGrow(q: multiset<OrderId>, q': multiset<OrderId>, f: multiset<OrderId>, f': multiset<OrderId>,
                   g: multiset<OrderId>, d: multiset<OrderId>)
    requires q == f + g && q' == f' + g && f' == f + d
    ensures q' == q + d
  {
  }

  lemma PlaceQueued(b: Book, o: Order)
    requires WellFormed(Buy, b.bids) && WellFormed(Sell, b.asks)
    requires multiset(Queued(b)) == multiset(b.orders.Keys) && o.id !in b.orders
    ensures var r := InsertOrder(b.(orders := b.orders[o.id := o]), o);
      multiset(Queued(r)) == multiset(r.orders.Keys)
  {
    var orders := b.orders[o.id := o];
    var r := InsertOrder(b.(orders := orders), o);
    QueuedSplit(b, o.side);
    QueuedSplit(r, o.side);
    QueuedGrow(multiset(Queued(b)), multiset(Queued(r)),
               multiset(Flatten(Ladder(b, o.side))), multiset(Flatten(Ladder(r, o.side))),
               multiset(Flatten(Ladder(b, Opposite(o.side)))), multiset{o.id});
    KeysAdd(b.orders, o.id, o);
  }

  lemma PlaceRegistered(b: Book, o: Order)
    requires Registered(b) && Resting(o) && o.symbol == b.symbol
    requires WellFormed(Buy, b.bids) && WellFormed(Sell, b.asks)
    ensures Registered(InsertOrder(b.(orders := b.orders[o.id := o]), o))
  {
  }

  lemma PlaceValid(b: Book, o: Order)
    requires Valid(b) && Resting(o) && o.symbol == b.symbol && o.id !in b.orders
    ensures Valid(InsertOrder(b.(orders := b.orders[o.id := o]), o))
  {
    PlaceSides(b, o);
    PlaceQueued(b, o);
    PlaceRegistered(b, o);
  }

  /** Registers `o` by id and appends it at the tail of its level. */
  function Place(b: Book, o: Order): (r: Book)
    requires Valid(b) && Resting(o) && o.symbol == b.symbol && o.id !in b.orders
    ensures Valid(r) && r.symbol == b.symbol
    ensures r.orders == b.orders[o.id := o]
    ensures Ladder(r, Opposite(o.side)) == Ladder(b, Opposite(o.side))
    ensures LevelQueue(Ladder(r, o.side), KeyFor(o)) == LevelQueue(Ladder(b, o.side), KeyFor(o)) + [o.id]
    ensures forall k :: k != KeyFor(o) ==> LevelQueue(Ladder(r, o.side), k) == LevelQueue(Ladder(b, o.side), k)
  {
    PlaceValid(b, o);
    InsertOrder(b.(orders := b.orders[o.id := o]), o)
  }

  lemma WithdrawOwnSide(b: Book, id: OrderId)
    requires id in b.orders && WellFormed(Buy, b.bids) && WellFormed(Sell, b.asks)
    requires SideValid(b, b.orders[id].side) && b.orders[id].id == id
    ensures var r := EraseOrder(b, b.orders[id]).(orders := b.orders - {id});
      SideValid(r, b.orders[id].side)
  {
    var o := b.orders[id];
    var e := EraseOrder(b, o);
    var r := e.(orders := b.orders - {id});
    assert Ladder(r, o.side) == Ladder(e, o.side);
    KeyedRemove(o.side, Ladder(b, o.side), Ladder(r, o.side), b.orders, id);
  }

  lemma WithdrawOtherSide(b: Book, id: OrderId)
    requires id in b.orders && WellFormed(Buy, b.bids) && WellFormed(Sell, b.asks)
    requires SideValid(b, Opposite(b.orders[id].side))
    ensures var r := EraseOrder(b, b.orders[id]).(orders := b.orders - {id});
      SideValid(r, Opposite(b.orders[id].side))
  {
    var o := b.orders[id];
    var other := Opposite(o.side);
    var r := EraseOrder(b, o).(orders := b.orders - {id});
    var ls := Ladder(b, other);
    assert Ladder(r, other) == ls;
    forall k, x | x in LevelQueue(ls, k)
      ensures x in LevelQueue(ls, k) && x != id
    {
      assert b.orders[x].side == other;
    }
    KeyedShrink(other, ls, ls, b.orders, id);
  }

  lemma WithdrawSides(b: Book, id: OrderId)
    requires SideValid(b, Buy) && SideValid(b, Sell) && id in b.orders && b.orders[id].id == id
    ensures var r := EraseOrder(b, b.orders[id]).(orders := b.orders - {id});
      SideValid(r, Buy) && SideValid(r, Sell)
  {
    var own := b.orders[id].side;
    var r := EraseOrder(b, b.orders[id]).(orders := b.orders - {id});
    BothSides(b, own);
    WithdrawOwnSide(b, id);
    WithdrawOtherSide(b, id);
    BothSides(r, own);
  }

  /** Removing the single copy of `id` from one side's ids removes it from
      the book's ids. */
  lemma QueuedShrink(q: multiset<OrderId>, q': multiset<OrderId>, f: multiset<OrderId>, f': multiset<OrderId>,
                     g: multiset<OrderId>, lq: multiset<OrderId>, rm: multiset<OrderId>, id: OrderId)
    requires q == f + g && q' == f' + g
    requires f' + lq == f + rm && rm == lq[id := 0] && lq[id] == 1
    ensures q' == q - multiset{id}
  {
    DropOne(f, f', lq, rm, id);
    assert (f' + lq)[id] == (f + rm)[id];
    forall y
      ensures q'[y] == (q - multiset{id})[y]
    {
    }
  }

  lemma WithdrawQueued(b: Book, id: OrderId)
    requires Valid(b) && id in b.orders
    ensures var r := EraseOrder(b, b.orders[id]).(orders := b.orders - {id});
      multiset(Queued(r)) == multiset(r.orders.Keys)
  {
    var o := b.orders[id];
    var r := EraseOrder(b, o).(orders := b.orders - {id});
    var own := o.side;
    var ls, k := Ladder(b, own), KeyFor(o);
    var lq := LevelQueue(ls, k);
    Located(b, id);
    LevelQueueInFlatten(ls, k);
    assert multiset(lq)[id] == 1;
    QueuedSplit(b, own);
    QueuedSplit(r, own);
    RemoveAllCount(lq, id);
    QueuedShrink(multiset(Queued(b)), multiset(Queued(r)),
                 multiset(Flatten(ls)), multiset(Flatten(Ladder(r, own))),
                 multiset(Flatten(Ladder(b, Opposite(own)))),
                 multiset(lq), multiset(RemoveAll(lq, id)), id);
    KeysRemove(b.orders, id);
  }

  lemma WithdrawRegistered(b: Book, id: OrderId)
    requires Registered(b) && id in b.orders
    requires WellFormed(Buy, b.bids) && WellFormed(Sell, b.asks)
    ensures Registered(EraseOrder(b, b.orders[id]).(orders := b.orders - {id}))
  {
  }

  lemma WithdrawValid(b: Book, id: OrderId)
    requires Valid(b) && id in b.orders
    ensures Valid(EraseOrder(b, b.orders[id]).(orders := b.orders - {id}))
  {
    WithdrawSides(b, id);
    WithdrawQueued(b, id);
    WithdrawRegistered(b, id);
  }

  /** Cancels the order, erases it from its level and unregisters it. */
  function Withdraw(b: Book, id: OrderId): (r: Book)
    requires Valid(b) && id in b.orders
    ensures Valid(r) && r.symbol == b.symbol
    ensures r.orders == b.orders - {id}
    ensures id !in Queued(r)
    ensures var o := b.orders[id];
      && Ladder(r, Opposite(o.side)) == Ladder(b, Opposite(o.side))
      && LevelQueue(Ladder(r, o.side), KeyFor(o)) == RemoveAll(LevelQueue(Ladder(b, o.side), KeyFor(o)), id)
      && forall k :: k != KeyFor(o) ==> LevelQueue(Ladder(r, o.side), k) == LevelQueue(Ladder(b, o.side), k)
  {
    WithdrawValid(b, id);
    var r := EraseOrder(b, b.orders[id]).(orders := b.orders - {id});
    assert id !in multiset(Queued(r));
    r
  }

  // ---------------------------------------------------------------------
  // The public book operations

  /** `addOrder`: rejects an order of another symbol; otherwise registers
      it by id and appends it at the tail of its key's level. */
  function AddOrder(b: Book, o: Order): (r: Result<(Book, OrderId), Error>)
    requires Valid(b) && Resting(o) && o.id !in b.orders
    ensures r.Failure? <==> o.symbol != b.symbol
    ensures r.Failure? ==> r.error == SymbolMismatch
    ensures r.Success? ==>
      var (b', id) := r.value;
      && id == o.id
      && Valid(b') && b'.symbol == b.symbol
      && b'.orders == b.orders[o.id := o]
      && LevelQueue(Ladder(b', o.side), KeyFor(o)) == LevelQueue(Ladder(b, o.side), KeyFor(o)) + [o.id]
      && (forall k :: k != KeyFor(o) ==> LevelQueue(Ladder(b', o.side), k) == LevelQueue(Ladder(b, o.side), k))
      && Ladder(b', Opposite(o.side)) == Ladder(b, Opposite(o.side))
  {
    if o.symbol != b.symbol then Failure(SymbolMismatch)
    else Success((Place(b, o), o.id))
  }

  /** `removeOrder`: false and no change for an unknown id; otherwise the
      order leaves its queue (its level too, if that empties) and the map. */
  function RemoveOrder(b: Book, id: OrderId): (r: (bool, Book))
    requires Valid(b)
    ensures r.0 <==> id in b.orders
    ensures !r.0 ==> r.1 == b
    ensures Valid(r.1) && r.1.symbol == b.symbol
    ensures r.1.orders == b.orders - {id}
    ensures id !in Queued(r.1)
    ensures r.0 ==> var o := b.orders[id];
      && Ladder(r.1, Opposite(o.side)) == Ladder(b, Opposite(o.side))
      && LevelQueue(Ladder(r.1, o.side), KeyFor(o)) == RemoveAll(LevelQueue(Ladder(b, o.side), KeyFor(o)), id)
      && forall k :: k != KeyFor(o) ==> LevelQueue(Ladder(r.1, o.side), k) == LevelQueue(Ladder(b, o.side), k)
  {
    if id !in b.orders then
      assert b.orders - {id} == b.orders;
      assert id !in multiset(Queued(b));
      (false, b)
    else (true, Withdraw(b, id))
  }

  /** `modifyOrder`, with its validation done before anything is erased (see
      `ModifyOrderAsWritten` for the source's ordering). An absent price or
      quantity keeps the current one; a resulting quantity <= 0 removes the
      order; otherwise the order is updated and re-queued at the tail of the
      level for its (possibly new) key. */
  function ModifyOrder(b: Book, id: OrderId, newPrice: Option<Price>, newQty: Option<int>): (r: ModifyOutcome)
    requires Valid(b)
    ensures r.Refused? <==> id !in b.orders
    ensures r.Threw? ==> r.book == b && r.error == NonPositivePrice
    ensures r.Modified? ==> Valid(r.book) && r.book.symbol == b.symbol
    ensures id in b.orders ==>
      var o := b.orders[id];
      var price := newPrice.GetOr(o.price);
      var qty := newQty.GetOr(o.quantity);
      var o' := o.(price := price, quantity := qty);
      && (r.Threw? <==> qty > 0 && Priced(o) && price <= 0)
      && (r.Modified? ==> Ladder(r.book, Opposite(o.side)) == Ladder(b, Opposite(o.side)))
      && (r.Modified? && qty <= 0 ==>
            && r.book.orders == b.orders - {id} && id !in Queued(r.book)
            && forall k :: LevelQueue(Ladder(r.book, o.side), k) == RemoveAll(LevelQueue(Ladder(b, o.side), k), id))
      && (r.Modified? && qty > 0 ==>
            && r.book.orders == b.orders[id := o']
            && LevelQueue(Ladder(r.book, o.side), KeyFor(o'))
               == RemoveAll(LevelQueue(Ladder(b, o.side), KeyFor(o')), id) + [id]
            && forall k :: k != KeyFor(o') ==>
                 LevelQueue(Ladder(r.book, o.side), k) == RemoveAll(LevelQueue(Ladder(b, o.side), k), id))
  {
    if id !in b.orders then Refused
    else
      var o := b.orders[id];
      if !o.active then Refused
      else
        var price := newPrice.GetOr(o.price);
        var qty := newQty.GetOr(o.quantity);
        if qty <= 0 then
          WithdrawnLevels(b, id);
          Modified(Withdraw(b, id))
        else
          match Modify(o, price, qty)
          case Failure(e) => Threw(e, b)
          case Success(o') =>
            var w := Withdraw(b, id);
            RequeueAtTail(b, id, o');
            Modified(Place(w, o'))
  }

  /** After withdrawing an order, every level of its side holds what it
      held before less that order's id. */
  lemma WithdrawnLevel(b: Book, id: OrderId, k: Key)
    requires Valid(b) && id in b.orders
    ensures var side := b.orders[id].side;
      LevelQueue(Ladder(Withdraw(b, id), side), k) == RemoveAll(LevelQueue(Ladder(b, side), k), id)
  {
    var o := b.orders[id];
    if k != KeyFor(o) {
      var lq := LevelQueue(Ladder(b, o.side), k);
      assert id !in lq;
      RemoveAllCount(lq, id);
    }
  }

  /** Re-queuing an order whose key may have changed replaces its entry in
      the id map and puts it at the tail of the level for its new key, after
      every other order already there. */
  lemma RequeueAtTail(b: Book, id: OrderId, o': Order)
    requires Valid(b) && id in b.orders
    requires Resting(o') && o'.id == id && o'.symbol == b.symbol && o'.side == b.orders[id].side
    ensures Valid(Place(Withdraw(b, id), o'))
    ensures Place(Withdraw(b, id), o').orders == b.orders[id := o']
    ensures LevelQueue(Ladder(Place(Withdraw(b, id), o'), o'.side), KeyFor(o'))
         == RemoveAll(LevelQueue(Ladder(b, o'.side), KeyFor(o')), id) + [id]
    ensures forall k :: k != KeyFor(o') ==>
      LevelQueue(Ladder(Place(Withdraw(b, id), o'), o'.side), k) == RemoveAll(LevelQueue(Ladder(b, o'.side), k), id)
    ensures Ladder(Place(Withdraw(b, id), o'), Opposite(o'.side)) == Ladder(b, Opposite(o'.side))
  {
    ReplaceEntry(b.orders, id, o');
    WithdrawnLevels(b, id);
  }

  /** `WithdrawnLevel` at every key at once. */
  lemma WithdrawnLevels(b: Book, id: OrderId)
    requires Valid(b) && id in b.orders
    ensures var side := b.orders[id].side;
      forall k :: LevelQueue(Ladder(Withdraw(b, id), side), k) == RemoveAll(LevelQueue(Ladder(b, side), k), id)
  {
    forall k
      ensures LevelQueue(Ladder(Withdraw(b, id), b.orders[id].side), k)
           == RemoveAll(LevelQueue(Ladder(b, b.orders[id].side), k), id)
    {
      WithdrawnLevel(b, id, k);
    }
  }

  lemma ReplaceEntry(m: map<OrderId, Order>, id: OrderId, v: Order)
    ensures (m - {id})[id := v] == m[id := v]
  {
  }

  /** `modifyOrder` exactly as the source orders it: the order is erased
      from its level before `Order::modify` validates the new price, so a
      rejected price leaves the order registered but queued nowhere. */
  function ModifyOrderAsWritten(b: Book, id: OrderId, newPrice: Option<Price>, newQty: Option<int>): (r: ModifyOutcome)
    requires Valid(b)
    ensures !r.Threw? ==> r == ModifyOrder(b, id, newPrice, newQty)
    ensures r.Threw? ==> ModifyOrder(b, id, newPrice, newQty).Threw?
  {
    if id !in b.orders then Refused
    else
      var o := b.orders[id];
      if !o.active then Refused
      else
        var erased := EraseOrder(b, o);
        var price := newPrice.GetOr(o.price);
        var qty := newQty.GetOr(o.quantity);
        if qty <= 0 then
          assert erased.(orders := b.orders - {id}) == Withdraw(b, id);
          Modified(erased.(orders := b.orders - {id}))
        else
          match Modify(o, price, qty)
          case Failure(e) => Threw(e, erased)
          case Success(o') =>
            assert erased.(orders := b.orders - {id}) == Withdraw(b, id);
            Modified(Place(Withdraw(b, id), o'))
  }

  /** The defect: rejecting a non-positive price for a priced order leaves
      that order in the id map while no level queues it, so the book
      invariant is broken and matching can no longer reach the order. */
  lemma ModifyOrderAsWrittenOrphans(b: Book, id: OrderId, p: Price)
    requires Valid(b) && id in b.orders && Priced(b.orders[id]) && p <= 0
    ensures var r := ModifyOrderAsWritten(b, id, Some(p), None);
      && r.Threw? && r.error == NonPositivePrice
      && id in r.book.orders && r.book.orders[id] == b.orders[id]
      && id !in Queued(r.book)
      && !Valid(r.book)
  {
    var e := EraseOrder(b, b.orders[id]);
    assert ModifyOrderAsWritten(b, id, Some(p), None) == Threw(NonPositivePrice, e);
    ErasedGone(b, id);
    assert id in e.orders.Keys;
    assert multiset(Queued(e))[id] == 0;
  }

  /** Erasing a registered order from its level leaves no copy of its id
      queued anywhere in the book. */
  lemma ErasedGone(b: Book, id: OrderId)
    requires Valid(b) && id in b.orders
    ensures id !in Queued(EraseOrder(b, b.orders[id]))
  {
    var o := b.orders[id];
    var e := EraseOrder(b, o);
    Located(b, id);
    var own := o.side;
    var f, f' := multiset(Flatten(Ladder(b, own))), multiset(Flatten(Ladder(e, own)));
    var lq := LevelQueue(Ladder(b, own), KeyFor(o));
    LevelQueueInFlatten(Ladder(b, own), KeyFor(o));
    assert multiset(lq)[id] == 1;
    RemoveAllCount(lq, id);
    assert (f' + multiset(lq))[id] == (f + multiset(RemoveAll(lq, id)))[id];
    QueuedSplit(e, own);
    assert multiset(Queued(e))[id] == 0;
  }

  // ---------------------------------------------------------------------
  // Queries

  /** `getOrder`: the order registered under `id`, if any. */
  function GetOrder(b: Book, id: OrderId): (r: Option<Order>)
    requires Valid(b)
    ensures r.Some? <==> id in Queued(b)
    ensures r.Some? ==> r.value.id == id && r.value.symbol == b.symbol && Resting(r.value)
    ensures r.Some? ==> id in b.orders && r.value == b.orders[id]
  {
    assert id in b.orders <==> id in multiset(Queued(b));
    if id in b.orders then Some(b.orders[id]) else None
  }

  /** An id of the map whose order is active and priced: what the scans of
      `getBestBid`/`getBestAsk` stop at. */
  predicate PricedActive(x: OrderId, orders: map<OrderId, Order>) {
    x in orders && orders[x].active && Priced(orders[x])
  }

  /** The first active priced order in a queue order, as the scans of
      `getBestBid`/`getBestAsk` find it; `None` when the scan runs off the
      end. */
  function FirstPriced(ids: seq<OrderId>, orders: map<OrderId, Order>): (r: Option<Order>)
    ensures r.None? <==> forall i :: 0 <= i < |ids| ==> !PricedActive(ids[i], orders)
    ensures r.Some? ==> exists i :: 0 <= i < |ids| && FirstAt(ids, orders, i) && r.value == orders[ids[i]]
  {
    if |ids| == 0 then None
    else if PricedActive(ids[0], orders) then
      assert FirstAt(ids, orders, 0);
      Some(orders[ids[0]])
    else
      var r := FirstPriced(ids[1..], orders);
      if r.Some? then
        assert exists i :: 0 <= i < |ids| && FirstAt(ids, orders, i) && r.value == orders[ids[i]] by {
          var i :| 0 <= i < |ids[1..]| && FirstAt(ids[1..], orders, i) && r.value == orders[ids[1..][i]];
          assert FirstAt(ids, orders, i + 1);
        }
        r
      else
        assert forall i :: 1 <= i < |ids| ==> ids[i] == ids[1..][i - 1];
        r
  }

  /** Position `i` holds the first active priced id of `ids`. */
  ghost predicate FirstAt(ids: seq<OrderId>, orders: map<OrderId, Order>, i: int) {
    && 0 <= i < |ids| && PricedActive(ids[i], orders)
    && forall j :: 0 <= j < i ==> !PricedActive(ids[j], orders)
  }

  /** `getBestBid`. */
  function BestBid(b: Book): (r: Option<Order>)
    requires Valid(b)
    ensures r.None? <==> forall x :: x in b.orders && b.orders[x].side == Buy ==> !Priced(b.orders[x])
    ensures r.Some? ==>
      && r.value.id in b.orders && b.orders[r.value.id] == r.value
      && r.value.side == Buy && Priced(r.value)
      && (forall x :: x in b.orders && b.orders[x].side == Buy && Priced(b.orders[x]) ==>
           r.value.price >= b.orders[x].price)
      && |LevelQueue(b.bids, Px(r.value.price))| > 0
      && LevelQueue(b.bids, Px(r.value.price))[0] == r.value.id
  {
    BestIsTopOfBook(b, Buy);
    FirstPriced(Flatten(b.bids), b.orders)
  }

  /** `getBestAsk`. */
  function BestAsk(b: Book): (r: Option<Order>)
    requires Valid(b)
    ensures r.None? <==> forall x :: x in b.orders && b.orders[x].side == Sell ==> !Priced(b.orders[x])
    ensures r.Some? ==>
      && r.value.id in b.orders && b.orders[r.value.id] == r.value
      && r.value.side == Sell && Priced(r.value)
      && (forall x :: x in b.orders && b.orders[x].side == Sell && Priced(b.orders[x]) ==>
           r.value.price <= b.orders[x].price)
      && |LevelQueue(b.asks, Px(r.value.price))| > 0
      && LevelQueue(b.asks, Px(r.value.price))[0] == r.value.id
  {
    BestIsTopOfBook(b, Sell);
    FirstPriced(Flatten(b.asks), b.orders)
  }

  function BestOn(b: Book, side: Side): Option<Order> {
    FirstPriced(Flatten(Ladder(b, side)), b.orders)
  }

  /** `p` is at least as good a price as `q` for the side: higher for bids,
      lower for asks. */
  predicate AtLeastAsGood(side: Side, p: Price, q: Price) {
    if side == Buy then p >= q else p <= q
  }

  /** Ids earlier in a side's queue order sit at keys at or ahead of the
      keys of later ids. */
  lemma {:induction false} FlattenOrdered(side: Side, ls: seq<Level>, p: nat, q: nat) returns (i: nat, j: nat)
    requires Sorted(side, ls) && p <= q < |Flatten(ls)|
    ensures i < |ls| && j < |ls| && Flatten(ls)[p] in ls[i].queue && Flatten(ls)[q] in ls[j].queue
    ensures AheadOrSame(side, ls[i].key, ls[j].key)
  {
    var h := ls[0].queue;
    assert Flatten(ls) == h + Flatten(ls[1..]);
    if q < |h| {
      i, j := 0, 0;
    } else if p < |h| {
      var j' := FlattenMember(ls[1..], Flatten(ls)[q]);
      i, j := 0, j' + 1;
    } else {
      var i', j' := FlattenOrdered(side, ls[1..], p - |h|, q - |h|);
      i, j := i' + 1, j' + 1;
    }
  }

  /** Every registered order of a side sits in that side's queue order. */
  lemma OnItsSide(b: Book, x: OrderId)
    requires Valid(b) && x in b.orders
    ensures x in Flatten(Ladder(b, b.orders[x].side))
  {
    Located(b, x);
    InLevelQueueInFlatten(Ladder(b, b.orders[x].side), KeyFor(b.orders[x]), x);
  }

  /** Every id queued at level `i` is a registered active order whose own
      key is that level's key. */
  ghost predicate LevelsKeyed(ls: seq<Level>, orders: map<OrderId, Order>) {
    forall i, x :: 0 <= i < |ls| && x in ls[i].queue ==>
      x in orders && orders[x].id == x && orders[x].active && KeyFor(orders[x]) == ls[i].key
  }

  lemma LevelsKeyedOf(b: Book, side: Side)
    requires Valid(b)
    ensures LevelsKeyed(Ladder(b, side), b.orders)
  {
    BothSides(b, side);
    forall i, x | 0 <= i < |Ladder(b, side)| && x in Ladder(b, side)[i].queue
      ensures x in b.orders && KeyFor(b.orders[x]) == Ladder(b, side)[i].key
    {
      KeyedAt(side, Ladder(b, side), b.orders, i, x);
    }
  }

  /** The first active priced id in queue order is the head of the queue at
      its own key: market orders sit only at the market level, and every id
      at a priced level is active and priced, so the scan stops at the head
      of the first priced level. */
  lemma {:induction false} FirstPricedIsHead(ls: seq<Level>, orders: map<OrderId, Order>)
    requires LevelsKeyed(ls, orders) && NoEmptyLevel(ls)
    ensures var r := FirstPriced(Flatten(ls), orders);
      r.Some? ==>
        && |LevelQueue(ls, KeyFor(r.value))| > 0
        && LevelQueue(ls, KeyFor(r.value))[0] == r.value.id
  {
    if |ls| > 0 {
      var h, t := ls[0].queue, ls[1..];
      assert Flatten(ls) == h + Flatten(t);
      FirstPricedAppend(h, Flatten(t), orders);
      assert |h| > 0 && h[0] in h;
      if PricedActive(h[0], orders) {
        assert FirstPriced(h, orders) == Some(orders[h[0]]);
        assert LevelQueue(ls, ls[0].key) == h;
      } else {
        HeadlessFirstPriced(ls, orders);
        LevelsKeyedTail(ls, orders);
        FirstPricedIsHead(t, orders);
      }
    }
  }

  /** A first level that does not start with an active priced id is the
      market level: the scan finds nothing there, and any hit further on
      lies at another key. */
  lemma HeadlessFirstPriced(ls: seq<Level>, orders: map<OrderId, Order>)
    requires LevelsKeyed(ls, orders) && |ls| > 0 && |ls[0].queue| > 0
    requires !PricedActive(ls[0].queue[0], orders)
    ensures FirstPriced(ls[0].queue, orders).None?
    ensures var r := FirstPriced(Flatten(ls[1..]), orders);
      r.Some? ==> KeyFor(r.value) != ls[0].key && LevelQueue(ls, KeyFor(r.value)) == LevelQueue(ls[1..], KeyFor(r.value))
  {
    var h := ls[0].queue;
    assert h[0] in h;
    forall i | 0 <= i < |h|
      ensures !PricedActive(h[i], orders)
    {
      assert h[i] in h;
    }
  }

  lemma LevelsKeyedTail(ls: seq<Level>, orders: map<OrderId, Order>)
    requires LevelsKeyed(ls, orders) && NoEmptyLevel(ls) && |ls| > 0
    ensures LevelsKeyed(ls[1..], orders) && NoEmptyLevel(ls[1..])
  {
    assert forall i :: 0 <= i < |ls[1..]| ==> ls[1..][i] == ls[i + 1];
    forall i, x | 0 <= i < |ls[1..]| && x in ls[1..][i].queue
      ensures x in orders && orders[x].id == x && orders[x].active && KeyFor(orders[x]) == ls[1..][i].key
    {
      assert ls[1..][i] == ls[i + 1];
    }
  }

  /** The scan over a concatenation finds its first hit in the first part
      when there is one, otherwise in the second. */
  lemma {:induction false} FirstPricedAppend(a: seq<OrderId>, c: seq<OrderId>, orders: map<OrderId, Order>)
    ensures FirstPriced(a + c, orders) ==
      if FirstPriced(a, orders).Some? then FirstPriced(a, orders) else FirstPriced(c, orders)
  {
    if |a| == 0 {
      assert a + c == c;
    } else {
      assert (a + c)[1..] == a[1..] + c;
      FirstPricedAppend(a[1..], c, orders);
    }
  }

  /** Top of book: the best order of a side is a priced order of that side
      with a price at least as good as every other priced order there, and
      the oldest one queued at that price; there is none exactly when the
      side holds no priced order. */
  lemma BestIsTopOfBook(b: Book, side: Side)
    requires Valid(b)
    ensures BestOn(b, side).None? <==>
      forall x :: x in b.orders && b.orders[x].side == side ==> !Priced(b.orders[x])
    ensures BestOn(b, side).Some? ==>
      var o := BestOn(b, side).value;
      && o.id in b.orders && b.orders[o.id] == o && o.side == side && Priced(o)
      && (forall x :: x in b.orders && b.orders[x].side == side && Priced(b.orders[x]) ==>
           AtLeastAsGood(side, o.price, b.orders[x].price))
      && |LevelQueue(Ladder(b, side), Px(o.price))| > 0
      && LevelQueue(Ladder(b, side), Px(o.price))[0] == o.id
  {
    var f := Flatten(Ladder(b, side));
    BothSides(b, side);
    LevelsKeyedOf(b, side);
    FirstPricedIsHead(Ladder(b, side), b.orders);
    if BestOn(b, side).None? {
      forall x | x in b.orders && b.orders[x].side == side
        ensures !Priced(b.orders[x])
      {
        OnItsSide(b, x);
        var q :| 0 <= q < |f| && f[q] == x;
      }
    } else {
      var o := BestOn(b, side).value;
      var p :| 0 <= p < |f| && FirstAt(f, b.orders, p) && o == b.orders[f[p]];
      assert f[p] in f;
      KeyedFlatten(side, Ladder(b, side), b.orders, f[p]);
      forall x | x in b.orders && b.orders[x].side == side && Priced(b.orders[x])
        ensures AtLeastAsGood(side, o.price, b.orders[x].price)
      {
        OnItsSide(b, x);
        var q :| 0 <= q < |f| && f[q] == x;
        assert PricedActive(f[q], b.orders);
        TopOrder(b, side, p, q, f[p], x);
      }
    }
  }

  /** An earlier priced order of a side never has a worse price than a later
      priced one. */
  lemma TopOrder(b: Book, side: Side, p: nat, q: nat, x: OrderId, y: OrderId)
    requires Valid(b) && SideValid(b, side)
    requires p <= q < |Flatten(Ladder(b, side))|
    requires Flatten(Ladder(b, side))[p] == x && Flatten(Ladder(b, side))[q] == y
    requires x in b.orders && y in b.orders && Priced(b.orders[x]) && Priced(b.orders[y])
    ensures AtLeastAsGood(side, b.orders[x].price, b.orders[y].price)
  {
    var ls := Ladder(b, side);
    var i, j := FlattenOrdered(side, ls, p, q);
    KeyedAt(side, ls, b.orders, i, x);
    KeyedAt(side, ls, b.orders, j, y);
  }

  /** The active orders of a queue order, as `getBuyOrders`/`getSellOrders`
      collect them. */
  function ActiveOrders(ids: seq<OrderId>, orders: map<OrderId, Order>): (r: seq<Order>)
    ensures |r| <= |ids|
    ensures (forall i :: 0 <= i < |ids| ==> ids[i] in orders && orders[ids[i]].active) ==>
      |r| == |ids| && forall i :: 0 <= i < |ids| ==> r[i] == orders[ids[i]]
    ensures forall o :: o in r ==> o.active && exists i :: 0 <= i < |ids| && ids[i] in orders && orders[ids[i]] == o
  {
    if |ids| == 0 then []
    else
      var rest := ActiveOrders(ids[1..], orders);
      assert forall i :: 1 <= i < |ids| ==> ids[i] == ids[1..][i - 1];
      (if ids[0] in orders && orders[ids[0]].active then [orders[ids[0]]] else []) + rest
  }

  /** `getBuyOrders`. */
  function BuyOrders(b: Book): (r: seq<Order>)
    requires Valid(b)
    ensures var f := Flatten(Ladder(b, Buy));
      && |r| == |f|
      && (forall i :: 0 <= i < |f| ==> f[i] in b.orders && r[i] == b.orders[f[i]] && r[i].side == Buy && r[i].active)
      && (forall x :: x in b.orders && b.orders[x].side == Buy <==> x in f)
    ensures forall i, j :: 0 <= i <= j < |r| ==> AheadOrSame(Buy, KeyFor(r[i]), KeyFor(r[j]))
  {
    SideOrdersListing(b, Buy);
    SideMembers(b, Buy);
    SideOrders(b, Buy)
  }

  /** `getSellOrders`. */
  function SellOrders(b: Book): (r: seq<Order>)
    requires Valid(b)
    ensures var f := Flatten(Ladder(b, Sell));
      && |r| == |f|
      && (forall i :: 0 <= i < |f| ==> f[i] in b.orders && r[i] == b.orders[f[i]] && r[i].side == Sell && r[i].active)
      && (forall x :: x in b.orders && b.orders[x].side == Sell <==> x in f)
    ensures forall i, j :: 0 <= i <= j < |r| ==> AheadOrSame(Sell, KeyFor(r[i]), KeyFor(r[j]))
  {
    SideOrdersListing(b, Sell);
    SideMembers(b, Sell);
    SideOrders(b, Sell)
  }

  function SideOrders(b: Book, side: Side): seq<Order> {
    ActiveOrders(Flatten(Ladder(b, side)), b.orders)
  }

  /** The ids queued on a side are exactly the registered orders of that
      side, each queued once. */
  lemma SideMembers(b: Book, side: Side)
    requires Valid(b)
    ensures forall x :: x in b.orders && b.orders[x].side == side <==> x in Flatten(Ladder(b, side))
    ensures forall x :: x in Flatten(Ladder(b, side)) ==> multiset(Flatten(Ladder(b, side)))[x] == 1
  {
    var ls := Ladder(b, side);
    BothSides(b, side);
    forall x | x in Flatten(ls)
      ensures x in b.orders && b.orders[x].side == side && multiset(Flatten(ls))[x] == 1
    {
      KeyedFlatten(side, ls, b.orders, x);
      Located(b, x);
    }
    forall x | x in b.orders && b.orders[x].side == side
      ensures x in Flatten(ls)
    {
      OnItsSide(b, x);
    }
  }

  /** A side's listing is its queued orders, one entry per queued id, best
      key first and, within a key, in arrival order. */
  lemma SideOrdersListing(b: Book, side: Side)
    requires Valid(b)
    ensures var f := Flatten(Ladder(b, side));
      && (forall i :: 0 <= i < |f| ==> f[i] in b.orders && b.orders[f[i]].side == side && b.orders[f[i]].active)
      && |SideOrders(b, side)| == |f|
      && (forall i :: 0 <= i < |f| ==> SideOrders(b, side)[i] == b.orders[f[i]])
    ensures var r := SideOrders(b, side);
      forall i, j :: 0 <= i <= j < |r| ==> AheadOrSame(side, KeyFor(r[i]), KeyFor(r[j]))
  {
    var ls := Ladder(b, side);
    var f := Flatten(ls);
    BothSides(b, side);
    forall i | 0 <= i < |f|
      ensures f[i] in b.orders && b.orders[f[i]].side == side && b.orders[f[i]].active
    {
      KeyedFlatten(side, ls, b.orders, f[i]);
    }
    var r := SideOrders(b, side);
    forall i, j | 0 <= i <= j < |r|
      ensures AheadOrSame(side, KeyFor(r[i]), KeyFor(r[j]))
    {
      var li, lj := FlattenOrdered(side, ls, i, j);
      KeyedAt(side, ls, b.orders, li, f[i]);
      KeyedAt(side, ls, b.orders, lj, f[j]);
    }
  }

  /** Modifying an order's quantity to zero is removing it. */
  lemma ModifyToZeroIsRemove(b: Book, id: OrderId, newPrice: Option<Price>)
    requires Valid(b) && id in b.orders
    ensures ModifyOrder(b, id, newPrice, Some(0)) == Modified(RemoveOrder(b, id).1)
  {
    assert b.orders[id].active;
    assert RemoveOrder(b, id).1 == Withdraw(b, id);
  }
}

=== FILE: engine.dfy ===
/** `ExecutionEngine`: routes orders to one book per symbol (created on
    first use), remembers which book each submitted id went to, enforces a
    maximum order quantity, and reports every fill of a matching run as a
    trade tagged with the book's symbol. */
module Engines {
  import opened Wrappers
  import opened Orders
  import opened Ladders
  import opened Books
  import opened Matching

  datatype Trade = Trade(symbol: string, buyId: OrderId, sellId: OrderId, price: Price, qty: int)

  /** The trade handler is a callback the model cannot see: only whether one
      is installed matters, since that decides whether fills are reported. */
  datatype Engine = Engine(
    books: map<string, Book>,
    idToBook: map<OrderId, string>,
    maxOrderQty: int,
    hasHandler: bool)

  const DefaultMaxOrderQty: int := 1_000_000

  /** Each symbol's book carries that symbol and is valid; every id mapping
      names an existing book; and every order resting in a book is mapped
      to that book. Mappings of ids no longer resting (filled, or modified
      to zero) may linger. */
  ghost predicate EngineValid(e: Engine) {
    BooksValid(e) && Mapped(e) && Routed(e)
  }

  /** The book of `s` carries `s` and is valid. */
  ghost predicate BookValidAt(e: Engine, s: string)
    requires s in e.books
  {
    e.books[s].symbol == s && Valid(e.books[s])
  }

  /** Every book is valid. The trigger keeps each book's invariant folded
      until a proof names that book. */
  ghost predicate BooksValid(e: Engine) {
    forall s {:trigger BookValidAt(e, s)} :: s in e.books ==> BookValidAt(e, s)
  }

  ghost predicate Mapped(e: Engine) {
    forall id :: id in e.idToBook ==> e.idToBook[id] in e.books
  }

  ghost predicate Routed(e: Engine) {
    forall s, id :: s in e.books && id in e.books[s].orders ==> id in e.idToBook && e.idToBook[id] == s
  }

  lemma BookAt(e: Engine, s: string)
    requires BooksValid(e) && s in e.books
    ensures e.books[s].symbol == s && Valid(e.books[s])
  {
    assert BookValidAt(e, s);
  }

  /** `id` rests in some book. */
  ghost predicate Live(e: Engine, id: OrderId) {
    exists s :: s in e.books && id in e.books[s].orders
  }

  /** An id rests somewhere exactly when it rests in the book it is mapped
      to. */
  lemma LiveRouted(e: Engine, id: OrderId)
    requires Mapped(e) && Routed(e)
    ensures Live(e, id) <==> id in e.idToBook && id in e.books[e.idToBook[id]].orders
  {
    if Live(e, id) {
      var s :| s in e.books && id in e.books[s].orders;
      assert e.idToBook[id] == s;
    }
    if id in e.idToBook && id in e.books[e.idToBook[id]].orders {
      assert e.idToBook[id] in e.books;
    }
  }

  function NewEngine(): (e: Engine)
    ensures EngineValid(e)
    ensures e.books == map[] && e.idToBook == map[]
    ensures e.maxOrderQty == 1_000_000 && !e.hasHandler
  {
    Engine(map[], map[], DefaultMaxOrderQty, false)
  }

  /** An id rests in at most one book: the books never share an order. */
  lemma IdsUniqueAcrossBooks(e: Engine, s1: string, s2: string, id: OrderId)
    requires EngineValid(e)
    requires s1 in e.books && s2 in e.books
    requires id in e.books[s1].orders && id in e.books[s2].orders
    ensures s1 == s2
  {
    assert e.idToBook[id] == s1;
    assert e.idToBook[id] == s2;
  }

  /** `ensureBook`: creates an empty book for the symbol only if it has
      none. */
  function EnsureBook(e: Engine, symbol: string): (r: Engine)
    ensures symbol in r.books && r.books.Keys == e.books.Keys + {symbol}
    ensures symbol in e.books ==> r == e
    ensures symbol !in e.books ==> r.books[symbol] == NewBook(symbol)
    ensures forall s :: s in e.books ==> r.books[s] == e.books[s]
    ensures r.idToBook == e.idToBook && r.maxOrderQty == e.maxOrderQty && r.hasHandler == e.hasHandler
    ensures EngineValid(e) ==> EngineValid(r)
  {
    if symbol in e.books then e
    else
      var r := e.(books := e.books[symbol := NewBook(symbol)]);
      assert EngineValid(e) ==> EngineValid(r) by {
        if EngineValid(e) {
          ReplaceBook(e, symbol, NewBook(symbol), e.idToBook);
          NewBookRouted(e, symbol);
        }
      }
      r
  }

  // ---------------------------------------------------------------------
  // Replacing one book keeps the invariant

  /** Putting a valid book of symbol `s` in place of `s`'s book (or as a new
      book) keeps every book valid, whatever happens to the id map. */
  lemma ReplaceBook(e: Engine, s: string, b': Book, ids: map<OrderId, string>)
    requires BooksValid(e) && Valid(b') && b'.symbol == s
    ensures BooksValid(e.(books := e.books[s := b'], idToBook := ids))
  {
    var e' := e.(books := e.books[s := b'], idToBook := ids);
    forall t | t in e'.books
      ensures BookValidAt(e', t)
    {
      if t != s {
        BookAt(e, t);
      }
    }
  }

  /** A new empty book adds no orders, so the id map still routes every
      resting order. */
  lemma NewBookRouted(e: Engine, symbol: string)
    requires Mapped(e) && Routed(e) && symbol !in e.books
    ensures var e' := e.(books := e.books[symbol := NewBook(symbol)]);
      Mapped(e') && Routed(e')
  {
  }

  /** Adding fresh id `id` to the book of `s` and mapping it to `s` keeps
      the id map routing every resting order. */
  lemma SubmitRouted(e: Engine, s: string, id: OrderId, b': Book)
    requires Mapped(e) && Routed(e) && FreshId(e, id)
    requires forall x :: x in b'.orders ==> x == id || (s in e.books && x in e.books[s].orders)
    ensures var e' := e.(books := e.books[s := b'], idToBook := e.idToBook[id := s]);
      Mapped(e') && Routed(e')
  {
    var e' := e.(books := e.books[s := b'], idToBook := e.idToBook[id := s]);
    forall t, x | t in e'.books && x in e'.books[t].orders
      ensures x in e'.idToBook && e'.idToBook[x] == t
    {
      if t == s {
        if x != id {
          assert e.idToBook[x] == s;
        }
      } else {
        assert e.idToBook[x] == t;
        assert x != id;
      }
    }
  }

  /** Taking `id` out of its book and dropping its mapping keeps the id map
      routing every resting order. */
  lemma CancelRouted(e: Engine, id: OrderId, b': Book)
    requires Mapped(e) && Routed(e) && id in e.idToBook
    requires forall x :: x in b'.orders ==> x != id && x in e.books[e.idToBook[id]].orders
    ensures var e' := e.(books := e.books[e.idToBook[id] := b'], idToBook := e.idToBook - {id});
      Mapped(e') && Routed(e')
  {
    var s := e.idToBook[id];
    var e' := e.(books := e.books[s := b'], idToBook := e.idToBook - {id});
    forall x | x in e'.idToBook
      ensures e'.idToBook[x] in e'.books
    {
      assert e.idToBook[x] in e.books;
    }
    forall t, x | t in e'.books && x in e'.books[t].orders
      ensures x in e'.idToBook && e'.idToBook[x] == t
    {
      if t == s {
        assert e.idToBook[x] == s;
      } else {
        assert e.idToBook[x] == t;
      }
    }
  }

  /** A book that only loses orders (or keeps them) leaves the id map
      routing every resting order. */
  lemma ShrinkRouted(e: Engine, s: string, b': Book)
    requires Mapped(e) && Routed(e) && s in e.books
    requires forall x :: x in b'.orders ==> x in e.books[s].orders
    ensures var e' := e.(books := e.books[s := b']);
      Mapped(e') && Routed(e')
  {
    var e' := e.(books := e.books[s := b']);
    forall t, x | t in e'.books && x in e'.books[t].orders
      ensures x in e'.idToBook && e'.idToBook[x] == t
    {
      if t == s {
        assert e.idToBook[x] == s;
      } else {
        assert e.idToBook[x] == t;
      }
    }
  }

  lemma EnsureBookIdempotent(e: Engine, symbol: string)
    ensures EnsureBook(EnsureBook(e, symbol), symbol) == EnsureBook(e, symbol)
  {
  }

  /** `getBook`: the symbol's book, if one exists. */
  function GetBook(e: Engine, symbol: string): (r: Option<Book>)
    ensures r.Some? <==> symbol in e.books
    ensures r.Some? ==> r.value == e.books[symbol]
  {
    if symbol in e.books then Some(e.books[symbol]) else None
  }

  /** `bookForOrder`: the book an id was last submitted to, if any; the
      book may no longer hold the order. */
  function BookForOrder(e: Engine, id: OrderId): (r: Option<Book>)
    requires EngineValid(e)
    ensures r.Some? <==> id in e.idToBook
    ensures Live(e, id) ==> r.Some? && id in r.value.orders
    ensures r.Some? ==> r.value == e.books[e.idToBook[id]]
  {
    LiveRouted(e, id);
    if id in e.idToBook then Some(e.books[e.idToBook[id]]) else None
  }

  /** The trades reported for a run of fills on a book of `symbol`. */
  function Report(symbol: string, fills: seq<Match>): (r: seq<Trade>)
    ensures |r| == |fills|
    ensures forall i :: 0 <= i < |r| ==>
      r[i] == Trade(symbol, fills[i].buyId, fills[i].sellId, fills[i].price, fills[i].qty)
  {
    if |fills| == 0 then []
    else [Trade(symbol, fills[0].buyId, fills[0].sellId, fills[0].price, fills[0].qty)] + Report(symbol, fills[1..])
  }

  /** What a matching run hands the handler: every fill, in order, when a
      handler is installed; nothing otherwise. */
  function Reported(e: Engine, symbol: string, fills: seq<Match>): (r: seq<Trade>)
    ensures e.hasHandler ==> |r| == |fills| && forall i :: 0 <= i < |r| ==>
      && r[i].symbol == symbol && r[i].buyId == fills[i].buyId && r[i].sellId == fills[i].sellId
      && r[i].price == fills[i].price && r[i].qty == fills[i].qty
    ensures !e.hasHandler ==> r == []
  {
    if e.hasHandler then Report(symbol, fills) else []
  }

  /** Every reported trade carries the book's symbol and, when every fill
      is positive, a positive quantity. */
  lemma ReportedFills(e: Engine, symbol: string, fills: seq<Match>)
    requires forall i :: 0 <= i < |fills| ==> fills[i].qty > 0
    ensures forall i :: 0 <= i < |Reported(e, symbol, fills)| ==>
      Reported(e, symbol, fills)[i].symbol == symbol && Reported(e, symbol, fills)[i].qty > 0
  {
  }

  lemma KeysUpdate<K, V>(m: map<K, V>, k: K, v: V)
    ensures m[k := v].Keys == m.Keys + {k}
  {
  }

  /** No order of any book has id `id`. */
  ghost predicate FreshId(e: Engine, id: OrderId) {
    forall s :: s in e.books ==> id !in e.books[s].orders
  }

  /** The book of `o`'s symbol once `o` is added to it, before matching. */
  function Admitted(e: Engine, o: Order): (b: Book)
    requires EngineValid(e) && Resting(o) && FreshId(e, o.id)
    ensures Valid(b) && b.symbol == o.symbol
    ensures b.orders == (if o.symbol in e.books then e.books[o.symbol].orders else map[])[o.id := o]
  {
    var e1 := EnsureBook(e, o.symbol);
    BookAt(e1, o.symbol);
    AddOrder(e1.books[o.symbol], o).value.0
  }

  /** Admission queues `o` last at its own key and leaves the opposite side
      alone. */
  lemma AdmittedLadders(e: Engine, o: Order)
    requires EngineValid(e) && Resting(o) && FreshId(e, o.id)
    ensures var before := EnsureBook(e, o.symbol).books[o.symbol];
      var b := Admitted(e, o);
      && Ladder(b, Opposite(o.side)) == Ladder(before, Opposite(o.side))
      && LevelQueue(Ladder(b, o.side), KeyFor(o)) == LevelQueue(Ladder(before, o.side), KeyFor(o)) + [o.id]
  {
    BookAt(EnsureBook(e, o.symbol), o.symbol);
  }

  /** `submit`: rejects a null order and one above the quantity limit (a
      quantity equal to the limit is accepted); otherwise adds the order to
      its symbol's book (created if need be), records the id's book, runs
      matching there and reports the fills. Returns the order's own id. */
  function Submit(e: Engine, o: Option<Order>): (r: Result<(Engine, OrderId, seq<Trade>), Error>)
    requires EngineValid(e)
    requires o.Some? ==> Resting(o.value) && FreshId(e, o.value.id)
    ensures r.Failure? <==> o.None? || o.value.quantity > e.maxOrderQty
    ensures o.None? ==> r == Failure(NullOrder)
    ensures o.Some? && o.value.quantity > e.maxOrderQty ==> r == Failure(QuantityAboveLimit)
    ensures r.Success? ==> r.value.1 == o.value.id && (r.value.0, r.value.2) == Accept(e, o.value)
  {
    if o.None? then Failure(NullOrder)
    else if o.value.quantity > e.maxOrderQty then Failure(QuantityAboveLimit)
    else
      var (e', trades) := Accept(e, o.value);
      Success((e', o.value.id, trades))
  }

  /** The accepted path of `submit`: the order joins its symbol's book, the
      id is mapped to that book, the book is matched until uncrossed, and
      only that book changes. */
  function Accept(e: Engine, o: Order): (r: (Engine, seq<Trade>))
    requires EngineValid(e) && Resting(o) && FreshId(e, o.id)
    ensures var (e', trades) := r;
      var s := o.symbol;
      && EngineValid(e')
      && e'.books.Keys == e.books.Keys + {s}
      && e'.idToBook == e.idToBook[o.id := s]
      && e'.maxOrderQty == e.maxOrderQty && e'.hasHandler == e.hasHandler
      && (forall t :: t in e.books && t != s ==> e'.books[t] == e.books[t])
      && Valid(e'.books[s]) && !Crossed(e'.books[s])
      && (forall i :: 0 <= i < |trades| ==> trades[i].symbol == s && trades[i].qty > 0)
      && (!e.hasHandler ==> trades == [])
  {
    var s := o.symbol;
    var b1 := Admitted(e, o);
    var (b2, fills) := MatchBook(b1);
    SubmitValid(e, o, b2);
    KeysUpdate(e.books, s, b2);
    ReportedFills(e, s, fills);
    (e.(books := e.books[s := b2], idToBook := e.idToBook[o.id := s]), Reported(e, s, fills))
  }

  /** Orders of different symbols never trade with each other: both sides
      of every reported trade are the new order or orders already resting in
      its symbol's book, the buy side a buy order and the sell side a sell
      order. */
  lemma AcceptTradesInBook(e: Engine, o: Order)
    requires EngineValid(e) && Resting(o) && FreshId(e, o.id)
    ensures var trades := Accept(e, o).1;
      var before := if o.symbol in e.books then e.books[o.symbol].orders else map[];
      forall i :: 0 <= i < |trades| ==>
        && (trades[i].buyId == o.id || trades[i].buyId in before)
        && (trades[i].sellId == o.id || trades[i].sellId in before)
        && before[o.id := o][trades[i].buyId].side == Buy
        && before[o.id := o][trades[i].sellId].side == Sell
  {
    var b1 := Admitted(e, o);
    var fills := MatchBook(b1).1;
    assert Accept(e, o).1 == Reported(e, o.symbol, fills);
  }

  /** An accepted submission replaces its symbol's book by the admitted
      book matched until uncrossed, maps the id there, and reports exactly
      that matching's executions, in order, when a handler is installed. An
      order that does not cross rests: the book keeps every order it held
      plus the new one, and nothing trades. */
  lemma SubmitReportsFills(e: Engine, o: Order)
    requires EngineValid(e) && Resting(o) && FreshId(e, o.id) && o.quantity <= e.maxOrderQty
    ensures var r := Submit(e, Some(o));
      var b1 := Admitted(e, o);
      var (b2, fills) := MatchBook(b1);
      && r.Success? && r.value.1 == o.id
      && r.value.0 == e.(books := e.books[o.symbol := b2], idToBook := e.idToBook[o.id := o.symbol])
      && r.value.2 == (if e.hasHandler then Report(o.symbol, fills) else [])
      && (!Crossed(b1) ==>
            && r.value.0.books[o.symbol].orders
               == (if o.symbol in e.books then e.books[o.symbol].orders else map[])[o.id := o]
            && r.value.2 == [])
  {
    var b1 := Admitted(e, o);
    assert Accept(e, o).0.books[o.symbol] == MatchBook(b1).0;
  }

  lemma SubmitValid(e: Engine, o: Order, b2: Book)
    requires EngineValid(e) && Resting(o) && FreshId(e, o.id)
    requires Valid(b2) && b2.symbol == o.symbol && Untouched(Admitted(e, o), b2)
    ensures EngineValid(e.(books := e.books[o.symbol := b2], idToBook := e.idToBook[o.id := o.symbol]))
  {
    AdmittedOrders(e, o, b2);
    ReplaceBook(e, o.symbol, b2, e.idToBook[o.id := o.symbol]);
    SubmitRouted(e, o.symbol, o.id, b2);
  }

  /** What is left of the admitted book after matching holds only the new
      order and orders the book already had. */
  lemma AdmittedOrders(e: Engine, o: Order, b2: Book)
    requires EngineValid(e) && Resting(o) && FreshId(e, o.id)
    requires Untouched(Admitted(e, o), b2)
    ensures forall x :: x in b2.orders ==> x == o.id || (o.symbol in e.books && x in e.books[o.symbol].orders)
  {
    var b1 := Admitted(e, o);
    assert forall x :: x in b2.orders ==> x in b1.orders;
    WithinInsert(b2.orders, if o.symbol in e.books then e.books[o.symbol].orders else map[], o.id, o);
  }

  /** Keys drawn from a map with one entry set are that entry's key or keys
      of the original map. */
  lemma WithinInsert(m: map<OrderId, Order>, prior: map<OrderId, Order>, id: OrderId, v: Order)
    requires forall x :: x in m ==> x in prior[id := v]
    ensures forall x :: x in m ==> x == id || x in prior
  {
  }

  /** Submitting exactly at the quantity limit is accepted; one above is
      rejected. */
  lemma SubmitAtLimit(e: Engine, o: Order)
    requires EngineValid(e) && Resting(o) && FreshId(e, o.id)
    ensures o.quantity == e.maxOrderQty ==> Submit(e, Some(o)).Success?
    ensures o.quantity == e.maxOrderQty + 1 ==> Submit(e, Some(o)) == Failure(QuantityAboveLimit)
  {
  }

  /** A market order meeting an empty opposite side rests on its own side at
      the market key and produces no trade. */
  lemma MarketOrderNoLiquidity(e: Engine, o: Order)
    requires EngineValid(e) && Resting(o) && FreshId(e, o.id)
    requires o.orderType == Market && o.quantity <= e.maxOrderQty
    requires o.symbol in e.books ==> Ladder(e.books[o.symbol], Opposite(o.side)) == []
    ensures Submit(e, Some(o)).Success?
    ensures var (e', id, trades) := Submit(e, Some(o)).value;
      && trades == []
      && id in e'.books[o.symbol].orders && e'.books[o.symbol].orders[id] == o
      && id in LevelQueue(Ladder(e'.books[o.symbol], o.side), AtMarket)
  {
    var b1 := Admitted(e, o);
    AdmittedLadders(e, o);
    assert Ladder(b1, Opposite(o.side)) == [];
    assert !Crossed(b1);
  }

  /** `cancel`: false for an id the engine has not routed, or whose book no
      longer holds it; otherwise the order leaves its book and the id's
      mapping is dropped. */
  function Cancel(e: Engine, id: OrderId): (r: (bool, Engine))
    requires EngineValid(e)
    ensures r.0 <==> Live(e, id)
    ensures !r.0 ==> r.1 == e
    ensures EngineValid(r.1)
    ensures !Live(r.1, id)
    ensures r.0 ==> var s := e.idToBook[id];
      && r.1.idToBook == e.idToBook - {id}
      && r.1.books.Keys == e.books.Keys
      && r.1.books[s].orders == e.books[s].orders - {id}
      && (forall t :: t in e.books && t != s ==> r.1.books[t] == e.books[t])
  {
    LiveRouted(e, id);
    if id !in e.idToBook then (false, e)
    else
      var s := e.idToBook[id];
      BookAt(e, s);
      var (ok, b') := RemoveOrder(e.books[s], id);
      if ok then
        var e' := e.(books := e.books[s := b'], idToBook := e.idToBook - {id});
        CancelValid(e, id, b');
        LiveRouted(e', id);
        (true, e')
      else
        (false, e)
  }

  lemma CancelValid(e: Engine, id: OrderId, b': Book)
    requires EngineValid(e) && id in e.idToBook
    requires var s := e.idToBook[id];
      Valid(b') && b'.symbol == s && b'.orders == e.books[s].orders - {id}
    ensures EngineValid(e.(books := e.books[e.idToBook[id] := b'], idToBook := e.idToBook - {id}))
  {
    ReplaceBook(e, e.idToBook[id], b', e.idToBook - {id});
    CancelRouted(e, id, b');
  }

  /** Cancelling an id a second time reports false and changes nothing. */
  lemma CancelTwice(e: Engine, id: OrderId)
    requires EngineValid(e)
    ensures Cancel(Cancel(e, id).1, id).0 == false
    ensures Cancel(Cancel(e, id).1, id).1 == Cancel(e, id).1
  {
  }

  /** `modify`: false for an id the engine has not routed or that its book
      refuses (gone, or inactive); an exception from the book's validation
      propagates; otherwise matching re-runs on that book and its fills are
      reported. */
  function Modify(e: Engine, id: OrderId, newPrice: Option<Price>, newQty: Option<int>)
    : (r: Result<(bool, Engine, seq<Trade>), Error>)
    requires EngineValid(e)
    ensures r.Failure? ==> r.error == NonPositivePrice && Live(e, id)
    ensures !Live(e, id) ==> r == Success((false, e, []))
    ensures r.Success? && !r.value.0 ==> !Live(e, id) && r.value.1 == e && r.value.2 == []
    ensures r.Success? ==> EngineValid(r.value.1) && r.value.1.idToBook == e.idToBook
    ensures r.Success? ==> NoNewOrders(e, r.value.1)
    ensures id in e.idToBook && id in e.books[e.idToBook[id]].orders ==>
      var s := e.idToBook[id];
      var o := e.books[s].orders[id];
      var price := newPrice.GetOr(o.price);
      var qty := newQty.GetOr(o.quantity);
      && (r.Failure? <==> qty > 0 && Priced(o) && price <= 0)
      && (r.Success? ==>
            && r.value.0
            && r.value.1.books.Keys == e.books.Keys
            && (forall t :: t in e.books && t != s ==> r.value.1.books[t] == e.books[t])
            && Valid(r.value.1.books[s]) && !Crossed(r.value.1.books[s])
            && (qty <= 0 ==> id !in r.value.1.books[s].orders))
  {
    LiveRouted(e, id);
    if id !in e.idToBook then Success((false, e, []))
    else
      var s := e.idToBook[id];
      BookAt(e, s);
      match ModifyOrder(e.books[s], id, newPrice, newQty)
      case Refused => Success((false, e, []))
      case Threw(err, _) => Failure(err)
      case Modified(b1) =>
        var (e', trades) := Rematch(e, s, b1);
        RematchNoNew(e, s, b1);
        Success((true, e', trades))
  }

  /** Every order resting in `e'` rests in the same book of `e`. */
  ghost predicate NoNewOrders(e: Engine, e': Engine) {
    forall t, x :: t in e'.books && x in e'.books[t].orders ==> t in e.books && x in e.books[t].orders
  }

  /** A modification that leaves its book crossed triggers matching: with a
      handler installed, at least one trade is reported. */
  lemma ModifyTriggersRematch(e: Engine, id: OrderId, newPrice: Option<Price>, newQty: Option<int>)
    requires EngineValid(e) && id in e.idToBook && id in e.books[e.idToBook[id]].orders
    requires e.hasHandler
    requires var b := e.books[e.idToBook[id]];
      Valid(b) && ModifyOrder(b, id, newPrice, newQty).Modified? && Crossed(ModifyOrder(b, id, newPrice, newQty).book)
    ensures Modify(e, id, newPrice, newQty).Success?
    ensures |Modify(e, id, newPrice, newQty).value.2| > 0
  {
  }

  /** A modification that goes through replaces the order's book by the
      modified book matched until uncrossed, and reports exactly that
      matching's executions, in order, when a handler is installed. */
  lemma ModifyReportsFills(e: Engine, id: OrderId, newPrice: Option<Price>, newQty: Option<int>, s: string)
    requires EngineValid(e) && id in e.idToBook && e.idToBook[id] == s && s in e.books
    ensures Valid(e.books[s])
    ensures var m := ModifyOrder(e.books[s], id, newPrice, newQty);
      m.Modified? ==>
        var (b2, fills) := MatchBook(m.book);
        var r := Modify(e, id, newPrice, newQty);
        && r.Success? && r.value.0
        && r.value.1 == e.(books := e.books[s := b2])
        && r.value.2 == (if e.hasHandler then Report(s, fills) else [])
  {
    BookAt(e, s);
  }

  /** The modified path: the book of `s` is replaced by the modified book
      `b1` matched until uncrossed, and the fills are reported. */
  function Rematch(e: Engine, s: string, b1: Book): (r: (Engine, seq<Trade>))
    requires EngineValid(e) && s in e.books
    requires Valid(b1) && b1.symbol == s
    requires forall x :: x in b1.orders ==> x in e.books[s].orders
    ensures var (e', trades) := r;
      && EngineValid(e')
      && e'.books.Keys == e.books.Keys && e'.idToBook == e.idToBook
      && e'.maxOrderQty == e.maxOrderQty && e'.hasHandler == e.hasHandler
      && (forall t :: t in e.books && t != s ==> e'.books[t] == e.books[t])
      && Valid(e'.books[s]) && !Crossed(e'.books[s])
      && (forall x :: x in e'.books[s].orders ==> x in b1.orders)
      && (forall i :: 0 <= i < |trades| ==> trades[i].symbol == s && trades[i].qty > 0)
      && (!e.hasHandler ==> trades == [])
  {
    var (b2, fills) := MatchBook(b1);
    Install(e, s, b2, fills)
  }

  /** Puts a matched book back in place of `s`'s book and reports its fills;
      the book's orders are a subset of the ones it replaces. */
  function Install(e: Engine, s: string, b2: Book, fills: seq<Match>): (r: (Engine, seq<Trade>))
    requires EngineValid(e) && s in e.books
    requires Valid(b2) && b2.symbol == s && !Crossed(b2)
    requires forall x :: x in b2.orders ==> x in e.books[s].orders
    requires forall i :: 0 <= i < |fills| ==> fills[i].qty > 0
    ensures var (e', trades) := r;
      && EngineValid(e')
      && e'.books.Keys == e.books.Keys && e'.idToBook == e.idToBook
      && e'.maxOrderQty == e.maxOrderQty && e'.hasHandler == e.hasHandler
      && (forall t :: t in e.books && t != s ==> e'.books[t] == e.books[t])
      && e'.books[s] == b2
      && (forall i :: 0 <= i < |trades| ==> trades[i].symbol == s && trades[i].qty > 0)
      && (!e.hasHandler ==> trades == [])
      && (e.hasHandler ==> |trades| == |fills|)
  {
    ReplaceBook(e, s, b2, e.idToBook);
    ShrinkRouted(e, s, b2);
    KeysUpdate(e.books, s, b2);
    ReportedFills(e, s, fills);
    (e.(books := e.books[s := b2]), Reported(e, s, fills))
  }

  /** Re-matching never adds an order anywhere. */
  lemma RematchNoNew(e: Engine, s: string, b1: Book)
    requires EngineValid(e) && s in e.books
    requires Valid(b1) && b1.symbol == s
    requires forall x :: x in b1.orders ==> x in e.books[s].orders
    ensures NoNewOrders(e, Rematch(e, s, b1).0)
  {
    var e' := Rematch(e, s, b1).0;
    forall t, x | t in e'.books && x in e'.books[t].orders
      ensures t in e.books && x in e.books[t].orders
    {
      if t == s {
        assert x in b1.orders;
      }
    }
  }

  /** Re-matching a crossed book reports at least one trade when a handler
      is installed. */
  lemma RematchReports(e: Engine, s: string, b1: Book)
    requires EngineValid(e) && s in e.books
    requires Valid(b1) && b1.symbol == s
    requires forall x :: x in b1.orders ==> x in e.books[s].orders
    requires e.hasHandler && Crossed(b1)
    ensures |Rematch(e, s, b1).1| > 0
  {
  }

  /** `setMaxOrderQty`. */
  function SetMaxOrderQty(e: Engine, maxQty: int): (r: Engine)
    ensures r.maxOrderQty == maxQty
    ensures r.books == e.books && r.idToBook == e.idToBook && r.hasHandler == e.hasHandler
    ensures EngineValid(e) ==> EngineValid(r)
  {
    var r := e.(maxOrderQty := maxQty);
    assert EngineValid(e) ==> EngineValid(r) by {
      if EngineValid(e) {
        SameBooks(e, maxQty, e.hasHandler);
        assert r == e.(maxOrderQty := maxQty, hasHandler := e.hasHandler);
      }
    }
    r
  }

  /** `setTradeHandler`: installing (or clearing) the callback. */
  function SetTradeHandler(e: Engine, installed: bool): (r: Engine)
    ensures r.hasHandler == installed
    ensures r.books == e.books && r.idToBook == e.idToBook && r.maxOrderQty == e.maxOrderQty
    ensures EngineValid(e) ==> EngineValid(r)
  {
    var r := e.(hasHandler := installed);
    assert EngineValid(e) ==> EngineValid(r) by {
      if EngineValid(e) {
        SameBooks(e, e.maxOrderQty, installed);
        assert r == e.(maxOrderQty := e.maxOrderQty, hasHandler := installed);
      }
    }
    r
  }

  /** The limit and the handler play no part in consistency. */
  lemma SameBooks(e: Engine, maxQty: int, installed: bool)
    requires EngineValid(e)
    ensures EngineValid(e.(maxOrderQty := maxQty, hasHandler := installed))
  {
    SameBooksValid(e, maxQty, installed);
    SameBooksRouted(e, maxQty, installed);
  }

  lemma SameBooksValid(e: Engine, maxQty: int, installed: bool)
    requires BooksValid(e)
    ensures BooksValid(e.(maxOrderQty := maxQty, hasHandler := installed))
  {
    var e' := e.(maxOrderQty := maxQty, hasHandler := installed);
    forall s | s in e'.books
      ensures BookValidAt(e', s)
    {
      BookAt(e, s);
    }
  }

  lemma SameBooksRouted(e: Engine, maxQty: int, installed: bool)
    requires Mapped(e) && Routed(e)
    ensures var e' := e.(maxOrderQty := maxQty, hasHandler := installed);
      Mapped(e') && Routed(e')
  {
  }

  /** The limit set last decides acceptance: an order is rejected exactly
      when its quantity exceeds it. */
  lemma MaxOrderQtyGovernsSubmit(e: Engine, maxQty: int, o: Order)
    requires EngineValid(e) && Resting(o) && FreshId(e, o.id)
    ensures Submit(SetMaxOrderQty(e, maxQty), Some(o)).Failure? <==> o.quantity > maxQty
  {
  }

  /** Without a handler fills still happen but nothing is reported; with
      one, every fill of the run is reported. */
  lemma HandlerGovernsReports(e: Engine, o: Order, installed: bool)
    requires EngineValid(e) && Resting(o) && FreshId(e, o.id) && o.quantity <= e.maxOrderQty
    ensures var e1 := SetTradeHandler(e, installed);
      var b1 := Admitted(e1, o);
      Submit(e1, Some(o)).Success? &&
      Submit(e1, Some(o)).value.2 == (if installed then Report(o.symbol, MatchBook(b1).1) else [])
  {
    var e1 := SetTradeHandler(e, installed);
    assert Accept(e1, o).1 == Reported(e1, o.symbol, MatchBook(Admitted(e1, o)).1);
  }

  /** After `ensureBook`, `getBook` finds a book carrying the symbol; a book
      created just now is empty. */
  lemma GetBookAfterEnsure(e: Engine, symbol: string)
    requires EngineValid(e)
    ensures GetBook(EnsureBook(e, symbol), symbol).Some?
    ensures GetBook(EnsureBook(e, symbol), symbol).value.symbol == symbol
    ensures symbol !in e.books ==> GetBook(EnsureBook(e, symbol), symbol).value.orders == map[]
  {
    BookAt(EnsureBook(e, symbol), symbol);
  }
}

=== FILE: ladders.dfy ===
/** One side of a book: a price ladder of FIFO queues of order ids, kept in
    priority order (descending keys for bids, ascending keys for asks) with
    no empty level. The source keeps each side in a `std::map` ordered by
    its comparator; here a side is a sequence of levels and the map view is
    recovered by `LevelQueue`. */
module Ladders {
  import opened Orders

  /** Where an order sits on its side. A market order is keyed ahead of
      every priced level: the source uses +max for a market buy (top of the
      descending bid map) and -max for a market sell (top of the ascending
      ask map). */
  datatype Key = AtMarket | Px(ticks: Price)

  datatype Level = Level(key: Key, queue: seq<OrderId>)

  function KeyFor(o: Order): (k: Key)
    ensures k.AtMarket? <==> o.orderType == Market
    ensures k.Px? ==> k.ticks == o.price
  {
    if o.orderType == Market then AtMarket else Px(o.price)
  }

  /** `k1` comes strictly before `k2` in the side's ladder. */
  predicate Ahead(side: Side, k1: Key, k2: Key) {
    match k1
    case AtMarket => k2.Px?
    case Px(a) => k2.Px? && (if side == Buy then a > k2.ticks else a < k2.ticks)
  }

  predicate AheadOrSame(side: Side, k1: Key, k2: Key) {
    k1 == k2 || Ahead(side, k1, k2)
  }

  /** Ahead is a strict total order on keys, for either side. */
  lemma AheadStrictTotal(side: Side, k1: Key, k2: Key, k3: Key)
    ensures !Ahead(side, k1, k1)
    ensures k1 != k2 ==> Ahead(side, k1, k2) || Ahead(side, k2, k1)
    ensures Ahead(side, k1, k2) && Ahead(side, k2, k3) ==> Ahead(side, k1, k3)
  {
  }

  /** A market buy is keyed above every bid price and a market sell below
      every ask price: on both sides the market level is served first. */
  lemma MarketKeyFirst(o: Order, p: Price)
    requires o.orderType == Market
    ensures Ahead(o.side, KeyFor(o), Px(p))
    ensures o.side == Buy ==> forall q: Price :: Ahead(Buy, Px(q), Px(p)) <==> q > p
    ensures o.side == Sell ==> forall q: Price :: Ahead(Sell, Px(q), Px(p)) <==> q < p
  {
  }

  ghost predicate Sorted(side: Side, ls: seq<Level>) {
    forall i, j :: 0 <= i < j < |ls| ==> Ahead(side, ls[i].key, ls[j].key)
  }

  ghost predicate NoEmptyLevel(ls: seq<Level>) {
    forall i :: 0 <= i < |ls| ==> |ls[i].queue| > 0
  }

  ghost predicate WellFormed(side: Side, ls: seq<Level>) {
    Sorted(side, ls) && NoEmptyLevel(ls)
  }

  /** All queued ids of a side, best level first, FIFO within a level. */
  function Flatten(ls: seq<Level>): seq<OrderId> {
    if |ls| == 0 then [] else ls[0].queue + Flatten(ls[1..])
  }

  /** The queue held at key `k` (empty when the side has no such level). */
  function LevelQueue(ls: seq<Level>, k: Key): seq<OrderId> {
    if |ls| == 0 then []
    else if ls[0].key == k then ls[0].queue
    else LevelQueue(ls[1..], k)
  }

  /** `std::remove` of one id from a queue: every other id keeps its place. */
  function RemoveAll(q: seq<OrderId>, id: OrderId): seq<OrderId> {
    if |q| == 0 then []
    else (if q[0] == id then [] else [q[0]]) + RemoveAll(q[1..], id)
  }

  /** Removal drops every copy of `id` and keeps every other id as often as
      it occurred; a queue without `id` is left as it is. */
  lemma {:induction false} RemoveAllCount(q: seq<OrderId>, id: OrderId)
    ensures multiset(RemoveAll(q, id)) == multiset(q)[id := 0]
    ensures id !in q ==> RemoveAll(q, id) == q
  {
    if |q| > 0 {
      RemoveAllCount(q[1..], id);
      assert q == [q[0]] + q[1..];
    }
  }

  lemma RemoveAllMember(q: seq<OrderId>, id: OrderId, x: OrderId)
    ensures x in RemoveAll(q, id) <==> x in q && x != id
  {
    RemoveAllCount(q, id);
    assert x in RemoveAll(q, id) <==> x in multiset(RemoveAll(q, id));
    assert x in q <==> x in multiset(q);
  }

  /** Removing an id that occurs once leaves the ids before it and after
      it, in their order. */
  lemma {:induction false} RemoveAllOnce(a: seq<OrderId>, id: OrderId, b: seq<OrderId>)
    requires id !in a && id !in b
    ensures RemoveAll(a + [id] + b, id) == a + b
  {
    if |a| == 0 {
      assert a + [id] + b == [id] + b;
      RemoveAllCons(id, b, id);
      RemoveAllCount(b, id);
    } else {
      var x, t := a[0], a[1..];
      RemoveAllOnce(t, id, b);
      assert a + [id] + b == [x] + (t + [id] + b);
      RemoveAllCons(x, t + [id] + b, id);
      assert a + b == [x] + (t + b);
    }
  }

  lemma RemoveAllCons(x: OrderId, q: seq<OrderId>, id: OrderId)
    ensures RemoveAll([x] + q, id) == (if x == id then [] else [x]) + RemoveAll(q, id)
  {
    assert ([x] + q)[1..] == q;
  }

  lemma SortedTail(side: Side, ls: seq<Level>)
    requires |ls| > 0 && WellFormed(side, ls)
    ensures WellFormed(side, ls[1..])
  {
  }

  /** A level that is strictly ahead of a sorted ladder's head, followed by
      that ladder, is again sorted. */
  lemma SortedCons(side: Side, a: Level, rest: seq<Level>)
    requires Sorted(side, rest)
    requires |rest| > 0 ==> Ahead(side, a.key, rest[0].key)
    ensures Sorted(side, [a] + rest)
  {
    var r := [a] + rest;
    forall i, j | 0 <= i < j < |r|
      ensures Ahead(side, r[i].key, r[j].key)
    {
      if i == 0 && j > 1 {
        AheadStrictTotal(side, a.key, rest[0].key, rest[j - 1].key);
      }
    }
  }

  /** A key ahead of a sorted ladder's head (or at it, for the tail) has no
      level there. */
  lemma AbsentKey(side: Side, ls: seq<Level>, k: Key)
    requires Sorted(side, ls)
    requires forall i :: 0 <= i < |ls| ==> ls[i].key != k
    ensures LevelQueue(ls, k) == []
  {
    if |ls| > 0 {
      AbsentKey(side, ls[1..], k);
    }
  }

  lemma AheadOfAll(side: Side, ls: seq<Level>, k: Key)
    requires Sorted(side, ls) && |ls| > 0 && AheadOrSame(side, k, ls[0].key)
    ensures forall i :: 1 <= i < |ls| ==> Ahead(side, k, ls[i].key) && ls[i].key != k
  {
    forall i | 1 <= i < |ls|
      ensures Ahead(side, k, ls[i].key) && ls[i].key != k
    {
      AheadStrictTotal(side, k, ls[0].key, ls[i].key);
      AheadStrictTotal(side, ls[i].key, ls[i].key, ls[i].key);
    }
  }

  /** In a sorted ladder the map view at a level's key is that level's
      queue. */
  lemma {:induction false} LevelQueueAt(side: Side, ls: seq<Level>, i: nat)
    requires Sorted(side, ls) && i < |ls|
    ensures LevelQueue(ls, ls[i].key) == ls[i].queue
  {
    if i > 0 {
      AheadOfAll(side, ls, ls[0].key);
      LevelQueueAt(side, ls[1..], i - 1);
    }
  }

  lemma {:induction false} LevelQueueInFlatten(ls: seq<Level>, k: Key)
    ensures multiset(LevelQueue(ls, k)) <= multiset(Flatten(ls))
  {
    if |ls| > 0 && ls[0].key != k {
      LevelQueueInFlatten(ls[1..], k);
    }
  }

  /** An id of the flattened ladder sits in one of its levels. */
  lemma {:induction false} FlattenMember(ls: seq<Level>, x: OrderId) returns (i: nat)
    requires x in Flatten(ls)
    ensures i < |ls| && x in ls[i].queue
  {
    if x in ls[0].queue {
      i := 0;
    } else {
      var j := FlattenMember(ls[1..], x);
      i := j + 1;
    }
  }

  /** A ladder whose head is at or behind the second level of a sorted
      ladder may follow that ladder's first level. */
  lemma BehindHead(side: Side, ls: seq<Level>, rest: seq<Level>)
    requires Sorted(side, ls) && |ls| > 0
    requires |rest| > 0 ==> |ls| > 1 && AheadOrSame(side, ls[1].key, rest[0].key)
    ensures |rest| > 0 ==> Ahead(side, ls[0].key, rest[0].key)
  {
    if |rest| > 0 {
      AheadStrictTotal(side, ls[0].key, ls[1].key, rest[0].key);
    }
  }

  /** Appends `id` at the tail of the level keyed `k`, creating the level at
      its sorted position when there is none. */
  function Insert(side: Side, ls: seq<Level>, k: Key, id: OrderId): (r: seq<Level>)
    requires WellFormed(side, ls)
    ensures WellFormed(side, r)
    ensures LevelQueue(r, k) == LevelQueue(ls, k) + [id]
    ensures forall k' :: k' != k ==> LevelQueue(r, k') == LevelQueue(ls, k')
    ensures |r| > 0 && (r[0].key == k || (|ls| > 0 && r[0].key == ls[0].key))
  {
    if |ls| == 0 then
      [Level(k, [id])]
    else if ls[0].key == k then
      assert ([Level(k, ls[0].queue + [id])] + ls[1..])[1..] == ls[1..];
      [Level(k, ls[0].queue + [id])] + ls[1..]
    else if Ahead(side, k, ls[0].key) then
      AheadOfAll(side, ls, k);
      AheadStrictTotal(side, k, ls[0].key, ls[0].key);
      AbsentKey(side, ls, k);
      SortedCons(side, Level(k, [id]), ls);
      assert ([Level(k, [id])] + ls)[1..] == ls;
      [Level(k, [id])] + ls
    else
      SortedTail(side, ls);
      var rest := Insert(side, ls[1..], k, id);
      AheadStrictTotal(side, ls[0].key, k, k);
      AheadOfAll(side, ls, ls[0].key);
      SortedCons(side, ls[0], rest);
      assert ([ls[0]] + rest)[1..] == rest;
      [ls[0]] + rest
  }

  /** Inserting adds exactly one occurrence of `id` to the flattened side. */
  lemma {:induction false} InsertFlatten(side: Side, ls: seq<Level>, k: Key, id: OrderId)
    requires WellFormed(side, ls)
    ensures multiset(Flatten(Insert(side, ls, k, id))) == multiset(Flatten(ls)) + multiset{id}
  {
    if |ls| == 0 {
      FlattenCons(Level(k, [id]), []);
    } else {
      assert ls == [ls[0]] + ls[1..];
      FlattenCons(ls[0], ls[1..]);
      if ls[0].key == k {
        FlattenCons(Level(k, ls[0].queue + [id]), ls[1..]);
      } else if Ahead(side, k, ls[0].key) {
        FlattenCons(Level(k, [id]), ls);
      } else {
        SortedTail(side, ls);
        InsertFlatten(side, ls[1..], k, id);
        FlattenCons(ls[0], Insert(side, ls[1..], k, id));
      }
    }
  }

  lemma FlattenCons(l: Level, rest: seq<Level>)
    ensures multiset(Flatten([l] + rest)) == multiset(l.queue) + multiset(Flatten(rest))
  {
    assert ([l] + rest)[1..] == rest;
  }

  /** Removes `id` from the level keyed `k`, dropping the level if it
      empties; a missing level leaves the side unchanged. */
  function Erase(side: Side, ls: seq<Level>, k: Key, id: OrderId): (r: seq<Level>)
    requires WellFormed(side, ls)
    ensures WellFormed(side, r)
    ensures |r| > 0 ==> |ls| > 0 && AheadOrSame(side, ls[0].key, r[0].key)
  {
    if |ls| == 0 then
      ls
    else if ls[0].key == k then
      var q := RemoveAll(ls[0].queue, id);
      AheadOfAll(side, ls, k);
      SortedTail(side, ls);
      if |q| == 0 then
        ls[1..]
      else
        SortedCons(side, Level(k, q), ls[1..]);
        [Level(k, q)] + ls[1..]
    else
      SortedTail(side, ls);
      var rest := Erase(side, ls[1..], k, id);
      BehindHead(side, ls, rest);
      SortedCons(side, ls[0], rest);
      [ls[0]] + rest
  }

  /** Erasing touches exactly the level keyed `k`, where it removes `id`
      and nothing else. */
  lemma {:induction false} EraseLevels(side: Side, ls: seq<Level>, k: Key, id: OrderId)
    requires WellFormed(side, ls)
    ensures LevelQueue(Erase(side, ls, k, id), k) == RemoveAll(LevelQueue(ls, k), id)
    ensures forall k' :: k' != k ==> LevelQueue(Erase(side, ls, k, id), k') == LevelQueue(ls, k')
  {
    if |ls| > 0 {
      SortedTail(side, ls);
      var r := Erase(side, ls, k, id);
      if ls[0].key == k {
        var q := RemoveAll(ls[0].queue, id);
        AheadOfAll(side, ls, k);
        if |q| == 0 {
          AbsentKey(side, ls[1..], k);
          forall k' | k' != k
            ensures LevelQueue(r, k') == LevelQueue(ls, k')
          {
          }
        } else {
          assert r[1..] == ls[1..];
        }
      } else {
        EraseLevels(side, ls[1..], k, id);
        assert r[1..] == Erase(side, ls[1..], k, id);
      }
    }
  }

  /** Erasing removes from the flattened side exactly what it removes from
      the level keyed `k`. */
  lemma {:induction false} EraseFlatten(side: Side, ls: seq<Level>, k: Key, id: OrderId)
    requires WellFormed(side, ls)
    ensures multiset(Flatten(Erase(side, ls, k, id))) + multiset(LevelQueue(ls, k))
         == multiset(Flatten(ls)) + multiset(RemoveAll(LevelQueue(ls, k), id))
  {
    if |ls| > 0 {
      SortedTail(side, ls);
      if ls[0].key == k {
        EraseFlattenHead(side, ls, k, id);
      } else {
        EraseFlatten(side, ls[1..], k, id);
        EraseFlattenStep(side, ls, k, id);
      }
    }
  }

  lemma EraseFlattenHead(side: Side, ls: seq<Level>, k: Key, id: OrderId)
    requires WellFormed(side, ls) && |ls| > 0 && ls[0].key == k
    ensures multiset(Flatten(Erase(side, ls, k, id))) + multiset(LevelQueue(ls, k))
         == multiset(Flatten(ls)) + multiset(RemoveAll(LevelQueue(ls, k), id))
  {
    var r := Erase(side, ls, k, id);
    var head := multiset(ls[0].queue);
    var tail := multiset(Flatten(ls[1..]));
    var q := RemoveAll(ls[0].queue, id);
    assert multiset(Flatten(ls)) == head + tail;
    assert LevelQueue(ls, k) == ls[0].queue;
    if |q| == 0 {
      assert multiset(Flatten(r)) == tail;
      assert multiset(q) == multiset{};
    } else {
      assert r[1..] == ls[1..];
      assert multiset(Flatten(r)) == multiset(q) + tail;
    }
    assert multiset(Flatten(r)) + head == head + tail + multiset(q);
  }

  lemma EraseFlattenStep(side: Side, ls: seq<Level>, k: Key, id: OrderId)
    requires WellFormed(side, ls) && |ls| > 0 && ls[0].key != k
    requires WellFormed(side, ls[1..])
    requires multiset(Flatten(Erase(side, ls[1..], k, id))) + multiset(LevelQueue(ls[1..], k))
          == multiset(Flatten(ls[1..])) + multiset(RemoveAll(LevelQueue(ls[1..], k), id))
    ensures multiset(Flatten(Erase(side, ls, k, id))) + multiset(LevelQueue(ls, k))
         == multiset(Flatten(ls)) + multiset(RemoveAll(LevelQueue(ls, k), id))
  {
    var r := Erase(side, ls, k, id);
    var rest := Erase(side, ls[1..], k, id);
    var lq := LevelQueue(ls[1..], k);
    assert r[0] == ls[0] && r[1..] == rest;
    assert Flatten(r) == ls[0].queue + Flatten(rest);
    assert LevelQueue(ls, k) == lq;
    PrependBoth(ls[0].queue, Flatten(rest), lq, Flatten(ls[1..]), RemoveAll(lq, id));
  }

  /** The same prefix on both sides keeps a multiset balance. */
  lemma PrependBoth(h: seq<OrderId>, x: seq<OrderId>, l: seq<OrderId>, t: seq<OrderId>, rm: seq<OrderId>)
    requires multiset(x) + multiset(l) == multiset(t) + multiset(rm)
    ensures multiset(h + x) + multiset(l) == multiset(h + t) + multiset(rm)
  {
    calc {
      multiset(h + x) + multiset(l);
      multiset(h) + (multiset(x) + multiset(l));
      multiset(h) + (multiset(t) + multiset(rm));
      multiset(h + t) + multiset(rm);
    }
  }

  /** Pops the head of the best level, dropping the level if it empties. */
  function PopFront(side: Side, ls: seq<Level>): (r: seq<Level>)
    requires WellFormed(side, ls) && |ls| > 0
    ensures WellFormed(side, r)
    ensures Flatten(r) == Flatten(ls)[1..]
    ensures LevelQueue(r, ls[0].key) == ls[0].queue[1..]
    ensures forall k' :: k' != ls[0].key ==> LevelQueue(r, k') == LevelQueue(ls, k')
  {
    SortedTail(side, ls);
    AheadOfAll(side, ls, ls[0].key);
    if |ls[0].queue| == 1 then
      AbsentKey(side, ls[1..], ls[0].key);
      ls[1..]
    else
      var l := Level(ls[0].key, ls[0].queue[1..]);
      SortedCons(side, l, ls[1..]);
      assert ([l] + ls[1..])[1..] == ls[1..];
      [l] + ls[1..]
  }
}

=== FILE: matching.dfy ===
/** `OrderBook::match`: repeatedly crosses the front buy order against the
    front sell order, filling the smaller quantity on both, until a side runs
    out or the fronts no longer cross. */
module Matching {
  import opened Wrappers
  import opened Orders
  import opened Ladders
  import opened Books

  /** The id at the front of a side: head of the best level's FIFO. */
  function Front(b: Book, side: Side): (id: OrderId)
    requires Valid(b) && |Ladder(b, side)| > 0
    ensures id == Flatten(Ladder(b, side))[0]
    ensures id in b.orders && b.orders[id].side == side && Resting(b.orders[id])
    ensures KeyFor(b.orders[id]) == Ladder(b, side)[0].key
  {
    BothSides(b, side);
    var ls := Ladder(b, side);
    KeyedAt(side, ls, b.orders, 0, ls[0].queue[0]);
    ls[0].queue[0]
  }

  /** Total resting quantity of the orders an id sequence names. */
  function SumQty(ids: seq<OrderId>, orders: map<OrderId, Order>): int {
    if |ids| == 0 then 0
    else (if ids[0] in orders then orders[ids[0]].quantity else 0) + SumQty(ids[1..], orders)
  }

  /** Total resting quantity on one side of a book. */
  function SideQty(b: Book, side: Side): int {
    SumQty(Flatten(Ladder(b, side)), b.orders)
  }

  /** Total quantity over a run of matches. */
  function Traded(ms: seq<Match>): int {
    if |ms| == 0 then 0 else ms[0].qty + Traded(ms[1..])
  }

  /** Quantities summed over ids that two maps agree on are equal. */
  lemma {:induction false} SumQtyFrame(ids: seq<OrderId>, o1: map<OrderId, Order>, o2: map<OrderId, Order>)
    requires forall x :: x in ids ==> (x in o1 <==> x in o2)
    requires forall x :: x in ids && x in o1 ==> o1[x].quantity == o2[x].quantity
    ensures SumQty(ids, o1) == SumQty(ids, o2)
  {
    if |ids| > 0 {
      var x := ids[0];
      assert x in ids;
      assert (x in o1 <==> x in o2) && (x in o1 ==> o1[x].quantity == o2[x].quantity);
      assert forall y :: y in ids[1..] ==> y in ids;
      SumQtyFrame(ids[1..], o1, o2);
    }
  }

  /** The front of a side occurs once in that side's queue order. */
  lemma FrontOnce(b: Book, side: Side)
    requires Valid(b) && |Ladder(b, side)| > 0
    ensures Front(b, side) !in Flatten(Ladder(b, side))[1..]
    ensures Front(b, side) !in Flatten(Ladder(b, Opposite(side)))
  {
    var f := Flatten(Ladder(b, side));
    Located(b, Front(b, side));
    assert f == [f[0]] + f[1..];
  }

  // ---------------------------------------------------------------------
  // One fill of a side's front order

  /** The front order of `side` after a fill of `qty`. */
  function Filled(b: Book, side: Side, qty: int): (o: Order)
    requires Valid(b) && |Ladder(b, side)| > 0
    requires 0 < qty <= b.orders[Front(b, side)].quantity
    ensures var o0 := b.orders[Front(b, side)];
      && SameIdentity(o, o0) && o.price == o0.price
      && o.quantity == o0.quantity - qty
      && (o.active <==> qty < o0.quantity)
      && Consistent(o)
  {
    var o0 := b.orders[Front(b, side)];
    ReduceQuantity(o0, qty).value
  }

  /** A partial fill: the front order stays where it is with less quantity. */
  lemma PartialFillValid(b: Book, side: Side, qty: int)
    requires Valid(b) && |Ladder(b, side)| > 0
    requires 0 < qty < b.orders[Front(b, side)].quantity
    ensures Valid(b.(orders := b.orders[Front(b, side) := Filled(b, side, qty)]))
  {
    var id := Front(b, side);
    var orders := b.orders[id := Filled(b, side, qty)];
    var r := b.(orders := orders);
    assert orders.Keys == b.orders.Keys;
    KeyedFrame(Buy, b.bids, b.orders, orders);
    KeyedFrame(Sell, b.asks, b.orders, orders);
    assert SideValid(r, Buy) && SideValid(r, Sell);
  }

  /** The front order of `side` once a full fill pops it. */
  function PopSide(b: Book, side: Side): (r: Book)
    requires Valid(b) && |Ladder(b, side)| > 0
    ensures r.symbol == b.symbol && r.orders == b.orders - {Front(b, side)}
    ensures Ladder(r, Opposite(side)) == Ladder(b, Opposite(side))
    ensures WellFormed(side, Ladder(r, side))
    ensures Flatten(Ladder(r, side)) == Flatten(Ladder(b, side))[1..]
    ensures LevelQueue(Ladder(r, side), Ladder(b, side)[0].key) == Ladder(b, side)[0].queue[1..]
    ensures forall k :: k != Ladder(b, side)[0].key ==> LevelQueue(Ladder(r, side), k) == LevelQueue(Ladder(b, side), k)
  {
    var orders := b.orders - {Front(b, side)};
    BothSides(b, side);
    if side == Buy then Book(b.symbol, orders, PopFront(Buy, b.bids), b.asks)
    else Book(b.symbol, orders, b.bids, PopFront(Sell, b.asks))
  }

  lemma PopOwnSide(b: Book, side: Side)
    requires Valid(b) && |Ladder(b, side)| > 0
    ensures SideValid(PopSide(b, side), side)
  {
    var id := Front(b, side);
    var ls, ls' := Ladder(b, side), Ladder(PopSide(b, side), side);
    var k0 := ls[0].key;
    BothSides(b, side);
    FrontOnce(b, side);
    forall k, x | x in LevelQueue(ls', k)
      ensures x in LevelQueue(ls, k) && x != id
    {
      if k == k0 {
        assert ls[0].queue == [id] + ls[0].queue[1..];
        LevelQueueInFlatten(ls', k);
        assert x in multiset(Flatten(ls'));
      }
    }
    KeyedShrink(side, ls, ls', b.orders, id);
  }

  lemma PopOtherSide(b: Book, side: Side)
    requires Valid(b) && |Ladder(b, side)| > 0
    ensures SideValid(PopSide(b, side), Opposite(side))
  {
    var id := Front(b, side);
    var other := Opposite(side);
    var ls := Ladder(b, other);
    BothSides(b, side);
    forall k, x | x in LevelQueue(ls, k)
      ensures x in LevelQueue(ls, k) && x != id
    {
      assert b.orders[x].side == other;
    }
    KeyedShrink(other, ls, ls, b.orders, id);
  }

  lemma PopQueued(b: Book, side: Side)
    requires Valid(b) && |Ladder(b, side)| > 0
    ensures multiset(Queued(PopSide(b, side))) == multiset(PopSide(b, side).orders.Keys)
  {
    var id := Front(b, side);
    var r := PopSide(b, side);
    var f := Flatten(Ladder(b, side));
    assert f == [id] + f[1..];
    QueuedSplit(b, side);
    QueuedSplit(r, side);
    QueuedGrow(multiset(Queued(r)), multiset(Queued(b)),
               multiset(f[1..]), multiset(f), multiset(Flatten(Ladder(b, Opposite(side)))), multiset{id});
    KeysRemove(b.orders, id);
  }

  lemma PopValid(b: Book, side: Side)
    requires Valid(b) && |Ladder(b, side)| > 0
    ensures Valid(PopSide(b, side))
  {
    PopOwnSide(b, side);
    PopOtherSide(b, side);
    PopQueued(b, side);
    BothSides(PopSide(b, side), side);
  }

  /** Fills `qty` of the front order of `side`: a partial fill leaves it in
      place with less quantity; a full fill pops it from its level (dropping
      the level if it empties) and unregisters it. */
  function FillFront(b: Book, side: Side, qty: int): (r: Book)
    requires Valid(b) && |Ladder(b, side)| > 0
    requires 0 < qty <= b.orders[Front(b, side)].quantity
    ensures Valid(r) && r.symbol == b.symbol
    ensures Ladder(r, Opposite(side)) == Ladder(b, Opposite(side))
    ensures var id := Front(b, side);
      var full := qty == b.orders[id].quantity;
      && (full ==> r.orders == b.orders - {id} && Flatten(Ladder(r, side)) == Flatten(Ladder(b, side))[1..])
      && (!full ==> r.orders == b.orders[id := Filled(b, side, qty)] && Ladder(r, side) == Ladder(b, side))
  {
    var id := Front(b, side);
    var o := Filled(b, side, qty);
    if o.active then
      PartialFillValid(b, side, qty);
      b.(orders := b.orders[id := o])
    else
      PopValid(b, side);
      PopSide(b, side)
  }

  /** A fill takes exactly `qty` off its side's total and leaves the other
      side's total alone. */
  lemma FillFrontQty(b: Book, side: Side, qty: int)
    requires Valid(b) && |Ladder(b, side)| > 0
    requires 0 < qty <= b.orders[Front(b, side)].quantity
    ensures SideQty(FillFront(b, side, qty), side) == SideQty(b, side) - qty
    ensures SideQty(FillFront(b, side, qty), Opposite(side)) == SideQty(b, Opposite(side))
  {
    var id := Front(b, side);
    var r := FillFront(b, side, qty);
    var f, g := Flatten(Ladder(b, side)), Flatten(Ladder(b, Opposite(side)));
    FrontOnce(b, side);
    if qty == b.orders[id].quantity {
      FullFillSum(f, g, b.orders, r.orders, id);
    } else {
      PartialFillSum(f, g, b.orders, r.orders, id, qty);
    }
  }

  /** Sums after a full fill: the front id leaves the map and its queue. */
  lemma FullFillSum(f: seq<OrderId>, g: seq<OrderId>, o1: map<OrderId, Order>, o2: map<OrderId, Order>, id: OrderId)
    requires |f| > 0 && f[0] == id && id !in f[1..] && id !in g
    requires id in o1 && o2 == o1 - {id}
    ensures SumQty(f[1..], o2) == SumQty(f, o1) - o1[id].quantity
    ensures SumQty(g, o2) == SumQty(g, o1)
  {
    SumQtyFrame(f[1..], o1, o2);
    SumQtyFrame(g, o1, o2);
  }

  /** Sums after a partial fill: only the front order's quantity drops. */
  lemma PartialFillSum(f: seq<OrderId>, g: seq<OrderId>, o1: map<OrderId, Order>, o2: map<OrderId, Order>,
                           id: OrderId, qty: int)
    requires |f| > 0 && f[0] == id && id !in f[1..] && id !in g
    requires id in o1 && id in o2 && o2 == o1[id := o2[id]] && o2[id].quantity == o1[id].quantity - qty
    ensures SumQty(f, o2) == SumQty(f, o1) - qty
    ensures SumQty(g, o2) == SumQty(g, o1)
  {
    SumQtyFrame(f[1..], o1, o2);
    SumQtyFrame(g, o1, o2);
  }

  // ---------------------------------------------------------------------
  // One crossing step and the matching loop

  /** The fronts of both sides cross: either is a market order, or the bid
      is at or above the ask. */
  predicate Crossed(b: Book)
    requires Valid(b)
  {
    && |b.bids| > 0 && |b.asks| > 0
    && var buy, sell := b.orders[Front(b, Buy)], b.orders[Front(b, Sell)];
       buy.orderType == Market || sell.orderType == Market || buy.price >= sell.price
  }

  /** The price a crossing executes at: a market buy takes the sell's
      price, a market sell the buy's, and two priced orders trade at the
      buy's price whenever they cross. */
  function TradePrice(buy: Order, sell: Order): (px: Price)
    ensures px == buy.price || px == sell.price
    ensures buy.orderType == Market ==> px == sell.price
    ensures buy.orderType != Market && sell.orderType == Market ==> px == buy.price
    ensures Priced(buy) && Priced(sell) && buy.price >= sell.price ==> px == buy.price
  {
    if buy.orderType == Market then sell.price
    else if sell.orderType == Market then buy.price
    else if buy.price >= sell.price then buy.price
    else sell.price
  }

  /** Two crossing priced orders trade at the bid: a price both limits
      accept. */
  lemma CrossedTradesAtBid(buy: Order, sell: Order)
    requires Priced(buy) && Priced(sell) && buy.price >= sell.price
    ensures TradePrice(buy, sell) == buy.price
    ensures sell.price <= TradePrice(buy, sell) <= buy.price
  {
  }

  function Min(a: int, b: int): int {
    if a <= b then a else b
  }

  /** One iteration of the matching loop on crossing fronts: fill the
      smaller quantity on both fronts and record the execution. */
  function Cross(b: Book): (r: (Book, Match))
    requires Valid(b) && Crossed(b)
    ensures Valid(r.0) && r.0.symbol == b.symbol
    ensures var (b', m) := r;
      var buy, sell := b.orders[Front(b, Buy)], b.orders[Front(b, Sell)];
      && m.buyId == Flatten(b.bids)[0] && m.sellId == Flatten(b.asks)[0]
      && m.qty > 0 && m.qty <= buy.quantity && m.qty <= sell.quantity
      && (m.qty == buy.quantity || m.qty == sell.quantity)
      && m.price == TradePrice(buy, sell)
      && SideQty(b', Buy) == SideQty(b, Buy) - m.qty
      && SideQty(b', Sell) == SideQty(b, Sell) - m.qty
      && |b'.orders| < |b.orders|
      && (m.buyId in b'.orders <==> m.qty < buy.quantity)
      && (m.sellId in b'.orders <==> m.qty < sell.quantity)
    ensures Untouched(b, r.0)
  {
    var buyId, sellId := Front(b, Buy), Front(b, Sell);
    var buy, sell := b.orders[buyId], b.orders[sellId];
    var qty := Min(buy.quantity, sell.quantity);
    var b1 := FillFront(b, Buy, qty);
    FillFrontQty(b, Buy, qty);
    assert Front(b1, Sell) == sellId && b1.orders[sellId] == sell;
    var b2 := FillFront(b1, Sell, qty);
    FillFrontQty(b1, Sell, qty);
    CrossShrinks(b, b1, b2, buyId, sellId, qty);
    (b2, Match(buyId, sellId, TradePrice(buy, sell), qty))
  }

  /** Price-time priority of one step: the two fronts trade the smaller of
      their quantities, a front that survives keeps its place with exactly
      that much less, a front that is used up leaves its ladder from the
      head, and every other order stays as it was. */
  lemma CrossPriority(b: Book)
    requires Valid(b) && Crossed(b)
    ensures var (b', m) := Cross(b);
      var buy, sell := b.orders[m.buyId], b.orders[m.sellId];
      && m.qty == Min(buy.quantity, sell.quantity)
      && (m.buyId in b'.orders ==>
            && SameIdentity(b'.orders[m.buyId], buy)
            && b'.orders[m.buyId].price == buy.price
            && b'.orders[m.buyId].quantity == buy.quantity - m.qty)
      && (m.sellId in b'.orders ==>
            && SameIdentity(b'.orders[m.sellId], sell)
            && b'.orders[m.sellId].price == sell.price
            && b'.orders[m.sellId].quantity == sell.quantity - m.qty)
  {
    var buyId, sellId := Front(b, Buy), Front(b, Sell);
    var buy, sell := b.orders[buyId], b.orders[sellId];
    var qty := Min(buy.quantity, sell.quantity);
    var b1 := FillFront(b, Buy, qty);
    assert Front(b1, Sell) == sellId && b1.orders[sellId] == sell;
    var b2 := FillFront(b1, Sell, qty);
    assert Cross(b) == (b2, Match(buyId, sellId, TradePrice(buy, sell), qty));
  }

  /** The frame of one step: orders other than the two fronts keep their
      state, and each ladder is either kept or loses exactly its head. */
  lemma CrossFrame(b: Book)
    requires Valid(b) && Crossed(b)
    ensures var (b', m) := Cross(b);
      && (forall x :: x in b.orders && x != m.buyId && x != m.sellId ==>
            x in b'.orders && b'.orders[x] == b.orders[x])
      && Flatten(b'.bids) == (if m.buyId in b'.orders then Flatten(b.bids) else Flatten(b.bids)[1..])
      && Flatten(b'.asks) == (if m.sellId in b'.orders then Flatten(b.asks) else Flatten(b.asks)[1..])
  {
    var buyId, sellId := Front(b, Buy), Front(b, Sell);
    var buy, sell := b.orders[buyId], b.orders[sellId];
    var qty := Min(buy.quantity, sell.quantity);
    var b1 := FillFront(b, Buy, qty);
    FillFrontFrame(b, Buy, qty);
    assert Front(b1, Sell) == sellId && b1.orders[sellId] == sell;
    var b2 := FillFront(b1, Sell, qty);
    FillFrontFrame(b1, Sell, qty);
    assert buyId in b2.orders <==> buyId in b1.orders;
    assert Cross(b) == (b2, Match(buyId, sellId, TradePrice(buy, sell), qty));
  }

  /** A fill changes no order but the front, and its ladder either keeps
      its sequence or loses the front. */
  lemma FillFrontFrame(b: Book, side: Side, qty: int)
    requires Valid(b) && |Ladder(b, side)| > 0
    requires 0 < qty <= b.orders[Front(b, side)].quantity
    ensures var r, id := FillFront(b, side, qty), Front(b, side);
      && (forall x :: x in b.orders && x != id ==> x in r.orders && r.orders[x] == b.orders[x])
      && (forall x :: x in r.orders ==> x in b.orders)
      && Flatten(Ladder(r, side)) == (if id in r.orders then Flatten(Ladder(b, side)) else Flatten(Ladder(b, side))[1..])
  {
  }

  /** Every order a step leaves registered was registered before with the
      same identity and price and no more quantity. */
  ghost predicate Untouched(b: Book, b': Book) {
    forall x :: x in b'.orders ==>
      && x in b.orders && SameIdentity(b'.orders[x], b.orders[x])
      && b'.orders[x].price == b.orders[x].price
      && b'.orders[x].quantity <= b.orders[x].quantity
  }

  lemma CrossShrinks(b: Book, b1: Book, b2: Book, buyId: OrderId, sellId: OrderId, qty: int)
    requires buyId in b.orders && sellId in b.orders && buyId != sellId
    requires || (buyId !in b1.orders && b1.orders == b.orders - {buyId})
             || (buyId in b1.orders && b1.orders == b.orders[buyId := b1.orders[buyId]]
                 && SameIdentity(b1.orders[buyId], b.orders[buyId])
                 && b1.orders[buyId].price == b.orders[buyId].price
                 && b1.orders[buyId].quantity < b.orders[buyId].quantity)
    requires || (sellId !in b2.orders && b2.orders == b1.orders - {sellId})
             || (sellId in b2.orders && sellId in b1.orders && b2.orders == b1.orders[sellId := b2.orders[sellId]]
                 && SameIdentity(b2.orders[sellId], b1.orders[sellId])
                 && b2.orders[sellId].price == b1.orders[sellId].price
                 && b2.orders[sellId].quantity < b1.orders[sellId].quantity)
    requires buyId !in b1.orders || sellId !in b2.orders
    ensures |b2.orders| < |b.orders|
    ensures Untouched(b, b2)
  {
    assert |b1.orders| <= |b.orders| by {
      if buyId !in b1.orders {
        assert b1.orders.Keys == b.orders.Keys - {buyId};
      } else {
        assert b1.orders.Keys == b.orders.Keys;
      }
    }
    if buyId !in b1.orders {
      assert b1.orders.Keys == b.orders.Keys - {buyId};
    }
    if sellId !in b2.orders {
      assert b2.orders.Keys == b1.orders.Keys - {sellId};
    } else {
      assert b2.orders.Keys == b1.orders.Keys;
    }
  }

  /** Every execution fills a positive quantity between a buy order and a
      sell order of the book, at the trade price those two orders set. */
  ghost predicate Executions(b: Book, ms: seq<Match>) {
    forall i :: 0 <= i < |ms| ==>
      && ms[i].qty > 0
      && ms[i].buyId in b.orders && b.orders[ms[i].buyId].side == Buy
      && ms[i].sellId in b.orders && b.orders[ms[i].sellId].side == Sell
      && ms[i].price == TradePrice(b.orders[ms[i].buyId], b.orders[ms[i].sellId])
  }

  /** `match`: runs crossing steps until the fronts no longer cross, and
      returns the final book with the executions in the order they
      happened. */
  function MatchBook(b: Book): (r: (Book, seq<Match>))
    requires Valid(b)
    ensures Valid(r.0) && r.0.symbol == b.symbol
    ensures !Crossed(r.0)
    ensures SideQty(b, Buy) == SideQty(r.0, Buy) + Traded(r.1)
    ensures SideQty(b, Sell) == SideQty(r.0, Sell) + Traded(r.1)
    ensures Untouched(b, r.0)
    ensures Executions(b, r.1)
    ensures !Crossed(b) ==> r == (b, [])
    ensures Crossed(b) ==>
      && |r.1| > 0
      && r.1[0].buyId == Front(b, Buy) && r.1[0].sellId == Front(b, Sell)
      && r.1[0].price == TradePrice(b.orders[Front(b, Buy)], b.orders[Front(b, Sell)])
    decreases |b.orders|
  {
    if !Crossed(b) then (b, [])
    else
      var (b1, m) := Cross(b);
      var (b2, ms) := MatchBook(b1);
      assert Traded([m] + ms) == m.qty + Traded(ms) by {
        assert ([m] + ms)[1..] == ms;
      }
      MatchBookStep(b, b1, b2, m, ms);
      (b2, [m] + ms)
  }

  /** The order on one side of an execution. */
  function Party(m: Match, side: Side): OrderId {
    if side == Buy then m.buyId else m.sellId
  }

  /** Position of the first occurrence of `x` in `f`. */
  function IndexIn(x: OrderId, f: seq<OrderId>): (k: nat)
    requires x in f
    ensures k < |f| && f[k] == x
  {
    if f[0] == x then 0 else IndexIn(x, f[1..]) + 1
  }

  /** Price-time priority over a whole run that leaves the orders `rest`:
      every execution's order on `side` is queued in `f`, later executions
      never take an order queued ahead of an earlier execution's order, and
      every order queued ahead of an executed one was used up. */
  ghost predicate InPriority(ms: seq<Match>, side: Side, f: seq<OrderId>, rest: map<OrderId, Order>) {
    && (forall i :: 0 <= i < |ms| ==> Party(ms[i], side) in f)
    && (forall i, j :: 0 <= i < j < |ms| ==>
          IndexIn(Party(ms[i], side), f) <= IndexIn(Party(ms[j], side), f))
    && (forall i, k :: 0 <= i < |ms| && 0 <= k < IndexIn(Party(ms[i], side), f) ==> f[k] !in rest)
  }

  /** `match` consumes each side in its queue order (best key first, FIFO
      within a level) and never passes over an order it has not used up. */
  lemma {:induction false} MatchBookPriority(b: Book)
    requires Valid(b)
    ensures InPriority(MatchBook(b).1, Buy, Flatten(b.bids), MatchBook(b).0.orders)
    ensures InPriority(MatchBook(b).1, Sell, Flatten(b.asks), MatchBook(b).0.orders)
    decreases |b.orders|
  {
    if Crossed(b) {
      var (b1, m) := Cross(b);
      var (b2, ms) := MatchBook(b1);
      assert MatchBook(b) == (b2, [m] + ms);
      CrossFrame(b);
      MatchBookPriority(b1);
      PriorityStep(m, ms, Buy, Flatten(b.bids), Flatten(b1.bids), b1, b2);
      PriorityStep(m, ms, Sell, Flatten(b.asks), Flatten(b1.asks), b1, b2);
    }
  }

  /** One step of `MatchBookPriority`: the step's order is the head of the
      queue, and the rest of the run walks the queue that is left, which is
      the same queue or the queue without its head, the head then being
      gone from the book for good. */
  lemma PriorityStep(m: Match, ms: seq<Match>, side: Side, f: seq<OrderId>, f': seq<OrderId>, b1: Book, b2: Book)
    requires |f| > 0 && Party(m, side) == f[0]
    requires f' == (if Party(m, side) in b1.orders then f else f[1..])
    requires Executions(b1, ms) && Untouched(b1, b2) && InPriority(ms, side, f', b2.orders)
    ensures InPriority([m] + ms, side, f, b2.orders)
  {
    var ms' := [m] + ms;
    forall i | 0 <= i < |ms|
      ensures Party(ms[i], side) in f && IndexIn(Party(ms[i], side), f) == IndexIn(Party(ms[i], side), f') + |f| - |f'|
    {
      var x := Party(ms[i], side);
      if f' != f {
        assert x in b1.orders;
        assert x != f[0];
      }
    }
    forall i, j | 0 <= i < j < |ms'|
      ensures IndexIn(Party(ms'[i], side), f) <= IndexIn(Party(ms'[j], side), f)
    {
      if i > 0 {
        assert ms'[i] == ms[i - 1] && ms'[j] == ms[j - 1];
      }
    }
    forall i, k | 0 <= i < |ms'| && 0 <= k < IndexIn(Party(ms'[i], side), f)
      ensures f[k] !in b2.orders
    {
      assert i > 0 && ms'[i] == ms[i - 1];
      if f' != f {
        if k == 0 {
          assert f[0] !in b1.orders;
        } else {
          assert f[k] == f'[k - 1];
        }
      }
    }
  }

  lemma MatchBookStep(b: Book, b1: Book, b2: Book, m: Match, ms: seq<Match>)
    requires Untouched(b, b1) && Untouched(b1, b2) && Executions(b1, ms)
    requires m.qty > 0
    requires m.buyId in b.orders && b.orders[m.buyId].side == Buy
    requires m.sellId in b.orders && b.orders[m.sellId].side == Sell
    requires m.price == TradePrice(b.orders[m.buyId], b.orders[m.sellId])
    ensures Untouched(b, b2)
    ensures Executions(b, [m] + ms)
  {
    forall i | 1 <= i < |[m] + ms|
      ensures ([m] + ms)[i] == ms[i - 1]
    {
    }
    forall i | 0 <= i < |ms|
      ensures ms[i].price == TradePrice(b.orders[ms[i].buyId], b.orders[ms[i].sellId])
    {
      // Type and price survive a step, and the trade price depends on nothing else.
      var x, y := ms[i].buyId, ms[i].sellId;
      assert SameIdentity(b1.orders[x], b.orders[x]) && b1.orders[x].price == b.orders[x].price;
      assert SameIdentity(b1.orders[y], b.orders[y]) && b1.orders[y].price == b.orders[y].price;
    }
  }

  /** When matching stops, either a side is empty or both fronts are
      priced with the bid strictly below the ask. */
  lemma SettledBook(b: Book)
    requires Valid(b) && !Crossed(b)
    ensures |b.bids| == 0 || |b.asks| == 0 ||
      (var buy, sell := b.orders[Front(b, Buy)], b.orders[Front(b, Sell)];
       Priced(buy) && Priced(sell) && buy.price < sell.price)
  {
  }

  /** In a settled book with both sides non-empty, the best bid and best ask
      exist and the bid is strictly below the ask. */
  lemma SettledSpread(b: Book)
    requires Valid(b) && !Crossed(b) && |b.bids| > 0 && |b.asks| > 0
    ensures BestBid(b).Some? && BestAsk(b).Some?
    ensures BestBid(b).value == b.orders[Front(b, Buy)]
    ensures BestAsk(b).value == b.orders[Front(b, Sell)]
    ensures BestBid(b).value.price < BestAsk(b).value.price
  {
    var fb, fa := Flatten(b.bids), Flatten(b.asks);
    assert PricedActive(fb[0], b.orders) && PricedActive(fa[0], b.orders);
  }
}

=== FILE: orders.dfy ===
/** One order: its immutable identity (id, symbol, side, type) and its
    mutable matching state (price, quantity, active flag), together with the
    process-wide id counter that numbers orders as they are constructed.

    Prices are integer ticks: the engine only ever compares prices, so any
    order-preserving encoding of the source's doubles will do. */
module Orders {
  import opened Wrappers

  type OrderId = int
  type Price = int

  datatype Side = Buy | Sell
  datatype OrderType = Limit | Market | Stop

  /** Every exception the matching core can raise, one constructor per
      distinct failure (all are `std::invalid_argument` except
      `ModifyInactive`, which is a `std::logic_error`). */
  datatype Error =
    | EmptySymbol
    | NonPositiveQuantity
    | NonPositivePrice
    | ModifyInactive
    | NegativeQuantity
    | NonPositiveFill
    | FillExceedsResting
    | SymbolMismatch
    | NullOrder
    | QuantityAboveLimit

  datatype Order = Order(
    id: OrderId,
    symbol: string,
    side: Side,
    orderType: OrderType,
    price: Price,
    quantity: int,
    active: bool)

  /** The value the shared counter holds before any order is built. */
  const FirstOrderId: OrderId := 0

  /** A priced order is any order that is not a market order: LIMIT and STOP
      alike. */
  predicate Priced(o: Order) {
    o.orderType != Market
  }

  /** What construction establishes and every mutator keeps: a non-empty
      symbol, a non-negative quantity that is zero exactly when the order is
      inactive, and a positive price on a priced order. */
  predicate Consistent(o: Order) {
    && |o.symbol| > 0
    && o.quantity >= 0
    && (o.active <==> o.quantity > 0)
    && (Priced(o) ==> o.price > 0)
  }

  /** The fields no operation may change. */
  predicate SameIdentity(a: Order, b: Order) {
    a.id == b.id && a.symbol == b.symbol && a.side == b.side && a.orderType == b.orderType
  }

  /** Constructs an order, drawing its id from the counter `nextId` only once
      validation has passed. Returns the order and the counter's new value. */
  function NewOrder(nextId: OrderId, symbol: string, side: Side, orderType: OrderType,
                    price: Price, quantity: int): (r: Result<(Order, OrderId), Error>)
    ensures r.Failure? <==> (|symbol| == 0 || quantity <= 0 || (orderType != Market && price <= 0))
    ensures r.Failure? && |symbol| == 0 ==> r.error == EmptySymbol
    ensures r.Failure? && |symbol| > 0 && quantity <= 0 ==> r.error == NonPositiveQuantity
    ensures r.Failure? && |symbol| > 0 && quantity > 0 ==> r.error == NonPositivePrice
    ensures r.Success? ==>
      var (o, next) := r.value;
      && o.id == nextId && next == nextId + 1
      && o.symbol == symbol && o.side == side && o.orderType == orderType
      && o.price == price && o.quantity == quantity && o.active
      && Consistent(o)
  {
    if |symbol| == 0 then Failure(EmptySymbol)
    else if quantity <= 0 then Failure(NonPositiveQuantity)
    else if orderType != Market && price <= 0 then Failure(NonPositivePrice)
    else Success((Order(nextId, symbol, side, orderType, price, quantity, true), nextId + 1))
  }

  /** Replaces price and quantity; a quantity of zero deactivates the order. */
  function Modify(o: Order, newPrice: Price, newQuantity: int): (r: Result<Order, Error>)
    ensures r.Failure? <==> (!o.active || newQuantity < 0 || (Priced(o) && newPrice <= 0))
    ensures r.Failure? && !o.active ==> r.error == ModifyInactive
    ensures r.Failure? && o.active && newQuantity < 0 ==> r.error == NegativeQuantity
    ensures r.Failure? && o.active && newQuantity >= 0 ==> r.error == NonPositivePrice
    ensures r.Success? ==>
      && SameIdentity(o, r.value)
      && r.value.price == newPrice && r.value.quantity == newQuantity
      && (r.value.active <==> r.value.quantity != 0)
    ensures r.Success? && Consistent(o) ==> Consistent(r.value)
  {
    if !o.active then Failure(ModifyInactive)
    else if newQuantity < 0 then Failure(NegativeQuantity)
    else if o.orderType != Market && newPrice <= 0 then Failure(NonPositivePrice)
    else Success(o.(price := newPrice, quantity := newQuantity, active := newQuantity != 0))
  }

  /** Takes a fill of `traded` off the order by re-modifying it at its own
      price. On a consistent order it succeeds exactly for
      0 < traded <= quantity. */
  function ReduceQuantity(o: Order, traded: int): (r: Result<Order, Error>)
    ensures Consistent(o) ==> (r.Success? <==> 0 < traded <= o.quantity)
    ensures traded <= 0 ==> r == Failure(NonPositiveFill)
    ensures 0 < traded && traded > o.quantity ==> r == Failure(FillExceedsResting)
    ensures r.Success? ==>
      && SameIdentity(o, r.value)
      && r.value.price == o.price
      && r.value.quantity == o.quantity - traded
      && (r.value.active <==> r.value.quantity != 0)
    ensures r.Success? && Consistent(o) ==> Consistent(r.value)
  {
    if traded <= 0 then Failure(NonPositiveFill)
    else if traded > o.quantity then Failure(FillExceedsResting)
    else Modify(o, o.price, o.quantity - traded)
  }

  /** Deactivates the order and zeroes its quantity, whatever its state. */
  function Cancel(o: Order): (r: Order)
    ensures SameIdentity(o, r) && r.price == o.price
    ensures !r.active && r.quantity == 0
    ensures Consistent(o) ==> Consistent(r)
  {
    o.(active := false, quantity := 0)
  }

  /** Cancelling an already cancelled order changes nothing. */
  lemma CancelIdempotent(o: Order)
    ensures Cancel(Cancel(o)) == Cancel(o)
  {
  }

  /** After any successful mutation of a consistent order, the order is
      inactive exactly when its quantity is zero. */
  lemma InactiveIffEmpty(o: Order, price: Price, qty: int, traded: int)
    requires Consistent(o)
    ensures Modify(o, price, qty).Success? ==>
      (!Modify(o, price, qty).value.active <==> Modify(o, price, qty).value.quantity == 0)
    ensures ReduceQuantity(o, traded).Success? ==>
      (!ReduceQuantity(o, traded).value.active <==> ReduceQuantity(o, traded).value.quantity == 0)
    ensures !Cancel(o).active && Cancel(o).quantity == 0
  {
  }

  /** Orders built one after another from the same counter receive strictly
      increasing ids; the first one ever built receives id 0. */
  lemma SuccessiveIdsIncrease(nextId: OrderId, s1: string, d1: Side, t1: OrderType, p1: Price, q1: int,
                                               s2: string, d2: Side, t2: OrderType, p2: Price, q2: int)
    requires NewOrder(nextId, s1, d1, t1, p1, q1).Success?
    ensures var (a, next) := NewOrder(nextId, s1, d1, t1, p1, q1).value;
      NewOrder(next, s2, d2, t2, p2, q2).Success? ==>
        a.id < NewOrder(next, s2, d2, t2, p2, q2).value.0.id
    ensures nextId == FirstOrderId ==> NewOrder(nextId, s1, d1, t1, p1, q1).value.0.id == 0
  {
  }
}

=== FILE: venue.dfy ===
/** A client of the engine as the tests drive it: each order is built with
    the next value of the shared id counter and then handed to `submit`.
    Threading the counter through explicitly is what makes every
    submitted id fresh, which the engine relies on. */
module Venues {
  import opened Wrappers
  import opened Orders
  import opened Books
  import opened Engines

  datatype Venue = Venue(nextId: OrderId, engine: Engine)

  /** The engine is consistent and has only ever seen ids the counter has
      already handed out. */
  ghost predicate VenueValid(v: Venue) {
    && EngineValid(v.engine)
    && v.nextId >= FirstOrderId
    && (forall id :: id in v.engine.idToBook ==> id < v.nextId)
  }

  function NewVenue(): (v: Venue)
    ensures VenueValid(v) && v.nextId == FirstOrderId && v.engine == NewEngine()
  {
    Venue(FirstOrderId, NewEngine())
  }

  /** The counter's next value names no order of any book. */
  lemma CounterFresh(v: Venue)
    requires VenueValid(v)
    ensures FreshId(v.engine, v.nextId)
  {
    forall s | s in v.engine.books
      ensures v.nextId !in v.engine.books[s].orders
    {
      assert v.nextId !in v.engine.idToBook;
    }
  }

  /** Builds an order and submits it. A construction error leaves
      everything as it was; once construction succeeds the id is spent,
      even if `submit` then rejects the order. */
  function SubmitNew(v: Venue, symbol: string, side: Side, orderType: OrderType, price: Price, quantity: int)
    : (r: (Venue, Result<(OrderId, seq<Trade>), Error>))
    requires VenueValid(v)
    ensures VenueValid(r.0)
    ensures FreshId(v.engine, v.nextId)
    ensures NewOrder(v.nextId, symbol, side, orderType, price, quantity).Success? && quantity <= v.engine.maxOrderQty ==>
      var o := NewOrder(v.nextId, symbol, side, orderType, price, quantity).value.0;
      && r.1.Success?
      && (r.0.engine, r.1.value.1) == Accept(v.engine, o)
    ensures NewOrder(v.nextId, symbol, side, orderType, price, quantity).Failure? ==>
      r.0 == v && r.1 == Failure(NewOrder(v.nextId, symbol, side, orderType, price, quantity).error)
    ensures NewOrder(v.nextId, symbol, side, orderType, price, quantity).Success? ==>
      && r.0.nextId == v.nextId + 1
      && r.0.engine.maxOrderQty == v.engine.maxOrderQty && r.0.engine.hasHandler == v.engine.hasHandler
      && (quantity > v.engine.maxOrderQty ==> r.0.engine == v.engine && r.1 == Failure(QuantityAboveLimit))
      && (quantity <= v.engine.maxOrderQty ==> r.1.Success?)
    ensures r.1.Success? ==>
      && r.1.value.0 == v.nextId
      && r.1.value.0 !in v.engine.idToBook
      && r.0.engine.idToBook == v.engine.idToBook[r.1.value.0 := symbol]
  {
    CounterFresh(v);
    match NewOrder(v.nextId, symbol, side, orderType, price, quantity)
    case Failure(err) => (v, Failure(err))
    case Success((o, next)) =>
      match Submit(v.engine, Some(o))
      case Failure(err) => (Venue(next, v.engine), Failure(err))
      case Success((e', id, trades)) =>
        SubmitKeepsVenue(v, o.id, o.symbol, e');
        (Venue(next, e'), Success((id, trades)))
  }

  /** An accepted order spends the counter's value it was built with, so
      every mapped id stays below the advanced counter. */
  lemma SubmitKeepsVenue(v: Venue, id: OrderId, symbol: string, e': Engine)
    requires VenueValid(v) && id == v.nextId
    requires EngineValid(e') && e'.idToBook == v.engine.idToBook[id := symbol]
    ensures VenueValid(Venue(v.nextId + 1, e'))
  {
  }

  /** Cancels through the engine; the counter is untouched. */
  function CancelById(v: Venue, id: OrderId): (r: (Venue, bool))
    requires VenueValid(v)
    ensures VenueValid(r.0) && r.0.nextId == v.nextId
    ensures r.1 <==> Live(v.engine, id)
    ensures !Live(r.0.engine, id)
  {
    var (ok, e') := Engines.Cancel(v.engine, id);
    (Venue(v.nextId, e'), ok)
  }

  /** Modifies through the engine; the counter is untouched. */
  function ModifyById(v: Venue, id: OrderId, newPrice: Option<Price>, newQty: Option<int>)
    : (r: (Venue, Result<(bool, seq<Trade>), Error>))
    requires VenueValid(v)
    ensures VenueValid(r.0) && r.0.nextId == v.nextId
    ensures r.1.Failure? ==> r.0 == v && Live(v.engine, id)
    ensures r.1.Success? && !r.1.value.0 ==> r.0 == v && !Live(v.engine, id)
  {
    match Engines.Modify(v.engine, id, newPrice, newQty)
    case Failure(err) => (v, Failure(err))
    case Success((ok, e', trades)) => (Venue(v.nextId, e'), Success((ok, trades)))
  }

  /** The order `NewOrder` would build from these arguments passes
      construction and the engine's quantity limit. */
  predicate Acceptable(v: Venue, symbol: string, orderType: OrderType, price: Price, quantity: int) {
    && |symbol| > 0 && 0 < quantity <= v.engine.maxOrderQty
    && (orderType != Market ==> price > 0)
  }

  /** Two acceptable orders submitted one after the other are both accepted,
      with consecutive ids, and the first stays mapped when the second
      arrives. */
  lemma SuccessiveSubmitsIncrease(v: Venue,
                                  s1: string, d1: Side, t1: OrderType, p1: Price, q1: int,
                                  s2: string, d2: Side, t2: OrderType, p2: Price, q2: int)
    requires VenueValid(v)
    requires Acceptable(v, s1, t1, p1, q1) && Acceptable(v, s2, t2, p2, q2)
    ensures var (v1, r1) := SubmitNew(v, s1, d1, t1, p1, q1);
      var r2 := SubmitNew(v1, s2, d2, t2, p2, q2).1;
      && r1.Success? && r2.Success?
      && r1.value.0 == v.nextId && r2.value.0 == v.nextId + 1
      && r1.value.0 in v1.engine.idToBook
  {
    var (v1, r1) := SubmitNew(v, s1, d1, t1, p1, q1);
    assert v1.engine.maxOrderQty == v.engine.maxOrderQty;
  }

  /** No two accepted orders ever share an id: an acceptable order is
      accepted under an id above every id the engine already maps. */
  lemma IdsNeverReused(v: Venue, symbol: string, side: Side, orderType: OrderType, price: Price, quantity: int,
                       earlier: OrderId)
    requires VenueValid(v) && earlier in v.engine.idToBook
    requires Acceptable(v, symbol, orderType, price, quantity)
    ensures SubmitNew(v, symbol, side, orderType, price, quantity).1.Success?
    ensures earlier < SubmitNew(v, symbol, side, orderType, price, quantity).1.value.0
  {
  }
}

=== FILE: wrappers.dfy ===
/** Failure-compatible wrappers used by every layer of the model.
    `Option` stands for a value that may be absent (a null pointer, an empty
    `std::optional`); `Result` stands for a call that may throw. */
module Wrappers {

  datatype Option<T> = None | Some(value: T) {

    /** The wrapped value, or `default` when there is none (`value_or`). */
    function GetOr(default: T): (r: T)
      ensures Some? ==> r == value
      ensures None? ==> r == default
    {
      match this
      case Some(v) => v
      case None => default
    }
  }

  datatype Result<T, E> = Success(value: T) | Failure(error: E)
}
